=== FILE: README.md ===
# Risk-management form-schema engine, modelled in Dafny

This project models the core of a Django service. In the service, an insurer defines **risk models**: dynamic forms made of typed **fields**. Clients then submit **risk data**, one value per field. It also models the three list helpers the Vue front end uses while editing a risk model.

The model covers these parts:

- **Registry** (`registry.dfy`): the seventeen `FIELD_TYPES` pairs, the dispatch from a type tag to a registered type, and `tuple_to_dict` / `field_choices`.
- **Store** (`store.dfy`): immutable sequences of risk models, fields, submissions and stored values. Ids are positions plus one. The listing that hides soft-deleted fields and the one that shows them, and the field and submission defaults.
- **Schema** (`schema.dfy`): `FieldSerializer.validate` and the model-level attribute checks, plus `RiskModelSerializer.validate_fields`.
- **Slugs** (`slugs.dfy`, with `decimal.dfy` for the counter's decimal text): `generate_unique_slug` as a loop, with its truncation to 255 characters, and `FieldName.save`'s slug assignment.
- **Reconcile** (`reconcile.dfy`): `create`, `update`, `update_fields`, `delete_fields`, `create_fields` and the field ordering of `to_representation`.
- **Values** (`values.dfy`): `FieldValueSerializer`. This covers the type-tag dispatch to a value rule, null handling, the unknown-tag error, and the uniqueness check against successful submissions.
- **Submissions** (`submissions.dfy`): `RiskDataSerializer.validate` (required slugs) and `RiskDataProcessor`. The submission row is logged with `success = false`, then each entry is looked up, built, validated and stored. The first failure aborts. Otherwise all rows are appended and the submission is flipped to success.
- **FormParse** (`formparse.dfy`): `querydict_to_dict` and `nested_field_parse` over `key[inner]` and `key[inner][]` keys.
- **Views** (`views.py` behaviour, in `views.dfy`): the submission log and its filter and order, retrieval of a submission's values with file values turned into URLs, `field_types`, and the risk-model listing.
- **WebUtils** (`webutils.dfy`): `move`, `refreshFieldOrder` and `nullBlankFields` from `web-app/src/utils.js`.

The library pieces the code relies on are function-typed parameters rather than definitions. These are DRF's field parsers, `slugify`, file storage and the clock. So every property holds for any behaviour of those pieces.

Python dictionaries are association lists with unique keys, kept in insertion order. Errors are a small datatype with four cases:

- `Invalid(detail)`: a validation error dictionary;
- `ItemErrors`: the per-item list a `many=True` serializer raises;
- `NotFound`;
- `Unhandled(name)`: an exception the code does not catch.

Where the code does other than its names and docstrings suggest, the model follows the code:

- Field lookups by slug go through the default manager, which hides soft-deleted fields. So slug uniqueness is only among live fields.
- `update_fields` looks up re-posted ids across all risk models, not only the one being updated.
- A `risk_model` id that does not exist makes `RiskDataSerializer.validate` raise an uncaught `DoesNotExist`, not a not-found response.
- The order check only compares the first order with 1 and the last minus the first with `N - 1`. So `[1, 3, 3]` passes and `[2, 1]` fails.
- The min/max comparison is skipped when either bound is absent, null or 0, because of Python truthiness.
- Every save of a field row regenerates an empty slug. That includes the saves made by `update_fields` and `delete_fields`, not only the first one.
- A `select`, `radio` or `multiselect` field stored with null choices makes the value serializer raise `TypeError` while it builds its choice field.
- An optional file field submitted as `""` passes validation as null, and storing it then raises (see "## Findings"). `Env.storing` selects either the code as written (`AsWritten`) or the corrected storing (`NullKept`). Every property of the submission pipeline holds for both.

## Model

| member | source | states |
|---|---|---|
| Registry.ParseTagMatchesRegistry | risk_model_api/models.py:8-27 | a type tag is accepted exactly when one of the seventeen `FIELD_TYPES` pairs carries it |
| Registry.UnregisteredTags | risk_model_api/models.py:8-27 | `pdf`, `phone` and `texter` are not registered types and no pair carries them |
| Registry.RegistryShape | risk_model_api/models.py:8-27 | the registry has seventeen pairs, and `field_choices` starts with `{ARRAY, array}` and ends with `{URL, url}` |
| Registry.TupleToDict | risk_model_api/utils/utils.py:11-23 | length and order are kept, and element i has `text` = the pair's label and `value` = the pair's tag |
| Registry.TupleToDictRoundTrip | risk_model_api/utils/utils.py:11-23 | the original pairs can be read back from the dictionaries, so the conversion loses nothing |
| Registry.FieldChoices | risk_model_api/models.py:120-125 | seventeen choices, choice i being `{text, value}` of the i-th registry pair |
| Decimal.DigitsInjective | risk_model_api/utils/utils.py:75 | different counters give different decimal suffix texts |
| Slugs.PyPrefix | risk_model_api/utils/utils.py:77 | Python's `s[:n]`: a prefix of `s`, of length n whenever 0 <= n <= len(s) |
| Slugs.FirstFree | risk_model_api/utils/utils.py:74-79 | the loop stops at the first counter whose candidate is free, within `len(taken) + 1` rounds |
| Slugs.UniqueSlug | risk_model_api/utils/utils.py:71-80 | the slug is never taken; it is the slugified base when that is free, otherwise the first free suffixed candidate |
| Slugs.GenerateUniqueSlug | risk_model_api/utils/utils.py:60-80 | the loop returns a slug not in the taken set, equal to the first free candidate |
| Slugs.CandidateDistinct | risk_model_api/utils/utils.py:75-78 | two counters that give the same candidate are equal |
| Slugs.SuffixedWithinMax | risk_model_api/utils/utils.py:76-78 | a suffixed candidate never exceeds the 255-character slug length |
| Slugs.FullLengthCandidate | risk_model_api/utils/utils.py:76-78 | a base of 254 or more characters gives candidates of exactly 255 characters |
| Slugs.UniqueSlugLength | risk_model_api/utils/utils.py:71-80 | the result is the base itself or at most 255 characters long |
| Slugs.RegenerationDiffers | risk_model_api/utils/utils.py:60-80 | once the generated slug is stored, generating again for the same text gives a different slug |
| Slugs.SaveSlug | risk_model_api/models.py:127-130 | an existing slug is kept; an empty one is replaced by a fresh unique slug of the name |
| Store.NewField | risk_model_api/models.py:76-110 | a new field is required, not unique and not deleted, and its nullable columns (default, pattern, bounds, choices, help text) are null |
| Store.NewSubmission | risk_model_api/models.py:139 | a new submission has `success = false` |
| Store.ActiveFields | risk_model_api/models.py:57-63 | a field is listed iff it belongs to the model and is not deleted |
| Store.AllFields | risk_model_api/models.py:66-72 | a field is listed iff it belongs to the model, deleted or not |
| Store.ActiveWithinAll | risk_model_api/models.py:114-115 | the default listing is the all-listing without deleted fields, so it is never longer |
| Store.Filter | risk_model_api/v1/views.py:77-82 | a query filter keeps exactly the rows satisfying the predicate, in order, and nothing when none does |
| Schema.ValidateConstraints | risk_model_api/v1/serializers.py:30-74 | passes, returning the data unchanged, iff bounds, choices and pattern are consistent; otherwise the first failing check's keyed message, in source order |
| Schema.ZeroBoundSkipsComparison | risk_model_api/v1/serializers.py:36-41 | `min_length = 5, max_length = 0` passes because 0 is falsy |
| Schema.RangeMessages | risk_model_api/models.py:81-94 | a bound has no messages iff it is absent or lies in `0..FIELD_MAX_LENGTH` |
| Schema.TextMessages | risk_model_api/models.py:76-80 | a text column has no message iff it is non-blank (unless blank is allowed) and within its maximum length; a blank one gets only the blank message, an over-long one only the length message |
| Schema.ItemMessages | risk_model_api/models.py:100 | a choices list has no message iff every item is non-blank and at most 255 characters |
| Schema.ColumnMessagesMeaning | risk_model_api/models.py:76-106 | each column passes exactly when its own constraint holds: a non-blank name of at most 255 characters, a registered type, a default and a pattern of at most 255, bounds in range, non-blank choice items of at most 255, a non-blank help text, an order of at most 2147483647 |
| Schema.OrderMessages | risk_model_api/models.py:106 | the positive-integer order column reports a message exactly when the order exceeds the column's upper bound 2147483647 |
| Schema.OversizedOrderRejected | risk_model_api/models.py:106 | an order of 2147483648 is rejected with an error under the `order` key |
| Schema.ValidIffNoColumnMessages | risk_model_api/models.py:76-106 | a definition satisfies every column constraint exactly when no column reports a message |
| Schema.CheckAttributes | risk_model_api/models.py:76-106 | no attribute error iff every column constraint holds; a column's key appears iff that column fails, carrying exactly its messages |
| Schema.ValidateFieldData | risk_model_api/v1/serializers.py:13-74 | for a definition whose name, type and order are given, accepted iff every column constraint holds and the constraints are consistent, and then unchanged; a column failure is reported as the whole error, before the cross-key checks run |
| Schema.SetSizeDetectsDuplicates | risk_model_api/v1/serializers.py:118-122 | the set of names is as large as the list iff the names are pairwise distinct |
| Schema.ValidateFields | risk_model_api/v1/serializers.py:96-123 | the empty list, the order check and the distinct-name check fail in that order with their messages; success iff all three pass |
| Schema.OrderCheckExamples | risk_model_api/v1/serializers.py:107-116 | orders `[1, 3, 3]` and `[1, 2]` pass the order check and `[2, 1]` fails it |
| Schema.ValidateFieldsKeys | risk_model_api/v1/serializers.py:96-123 | every list-level rejection is reported under the `fields` key alone |
| Schema.ValidateSchema | risk_model_api/v1/serializers.py:82-123 | accepted iff every field is valid and the list checks pass; with an invalid field the error lists one entry per field, empty exactly for the valid ones; otherwise a rejection is keyed by `fields` alone |
| Reconcile.NameMessages | risk_model_api/models.py:42 | a model name has no message iff it is non-blank, at most 255 characters and no other risk model has it; a taken name's first message is the uniqueness message |
| Reconcile.ModelColumnMessagesMeaning | risk_model_api/models.py:42-46 | name, button, description and success message each pass exactly when their own column constraint holds |
| Reconcile.ModelAttributeErrors | risk_model_api/v1/serializers.py:76-94 | no error iff every model column passes; a column's key appears iff it fails, and a taken name is reported first under `name` |
| Reconcile.ValidateModelData | risk_model_api/v1/serializers.py:76-94 | accepted, unchanged, iff the model columns and the fields list pass; a taken name is always reported; per-item and list-level field errors are passed on unchanged next to the column messages |
| Reconcile.AppendKeepsNamesUnique | risk_model_api/models.py:42 | adding a model whose name no model has keeps model names unique |
| Reconcile.RenameKeepsNamesUnique | risk_model_api/models.py:42 | renaming a model to a name no other model has keeps model names unique |
| Reconcile.Write | risk_model_api/v1/serializers.py:168-172 | a partial update writes a present key (null included) and keeps the prior value for an absent one |
| Reconcile.UpdateField | risk_model_api/v1/serializers.py:168-172 | an update keeps id, slug, model and deleted flag; writes name, type and order; writes `required` and `unique` when given; writes every nullable column that is present, a null included; keeps every absent key |
| Reconcile.CreatedField | risk_model_api/v1/serializers.py:189-197 | a created field has the entry's name, type and order, its flags or their defaults, each nullable column given by the entry or null, and a fresh unique slug |
| Reconcile.TruthyIds | risk_model_api/v1/serializers.py:164-165 | exactly the truthy re-posted ids |
| Reconcile.NewEntries | risk_model_api/v1/serializers.py:174-176 | exactly the entries without a truthy id |
| Reconcile.SaveKeepsUnique | risk_model_api/models.py:127-130 | saving a row that keeps its stored slug, regenerated when empty, leaves live slugs unique |
| Reconcile.SaveAt | risk_model_api/models.py:127-130 | only the saved position changes; a non-empty slug is kept; an empty one becomes the first free slug of the name against the live slugs; a row live before the save ends with a slug; live slugs stay unique |
| Reconcile.UpdateFields | risk_model_api/v1/serializers.py:157-176 | ids, models and deleted flags are unchanged and non-empty slugs are kept; fields not kept are untouched; every kept id names a live field; the only failure is not-found |
| Reconcile.UpdateFieldsKeepsUnique | risk_model_api/v1/serializers.py:161-172 | updating in place, with the save's slug regeneration, keeps live slugs unique |
| Reconcile.UpdateFieldsWrites | risk_model_api/v1/serializers.py:157-172 | when no lookup fails, ids are distinct and no id is posted twice, the row named by each truthy id is live and holds exactly the update of that entry, slug aside |
| Reconcile.UpdateStepWrites | risk_model_api/v1/serializers.py:161-172 | the update of the first entry survives the updates of the later entries, none of which names its row |
| Reconcile.UpdateFieldsPartition | risk_model_api/v1/serializers.py:163-176 | when no lookup fails, the kept ids are the truthy ids and the entries to create are the id-less ones |
| Reconcile.SoftDeleteFrom | risk_model_api/v1/serializers.py:184-187 | from the given position on, a row ends up deleted iff it already was or it is an unkept field of the model; earlier rows and kept rows are untouched; a newly deleted row ends with a slug |
| Reconcile.SoftDeleteUnkept | risk_model_api/v1/serializers.py:178-187 | a field ends up deleted iff it already was or it is a field of the model not kept; only the deleted flag and an empty slug change, each save giving a newly deleted row a slug; no row is removed and live slugs stay unique |
| Reconcile.CreateFields | risk_model_api/v1/serializers.py:189-197 | the new fields are appended in entry order under the model with the next ids, each with its entry's columns (nullable ones null when absent), and live slugs stay unique |
| Reconcile.AppendedWithoutIds | risk_model_api/v1/serializers.py:134-135 | dropping client-supplied ids before creating does not change what is created |
| Reconcile.CreateRiskModel | risk_model_api/v1/serializers.py:125-138 | a rejected payload (a taken name, a failing column or field) changes nothing; otherwise the model gets the next id, the payload's name, button, description and success message, `activated` true unless given, and its fields are appended with their entries' columns (nullable ones null when absent); model names and live slugs stay unique |
| Reconcile.ReconcileFields | risk_model_api/v1/serializers.py:151-153 | update, soft-delete and create: existing rows keep ids, models and non-empty slugs; unkept fields of the model become deleted; new entries are appended with their entries' columns; live slugs stay unique |
| Reconcile.ReconcileFieldsWrites | risk_model_api/v1/serializers.py:151-172 | after a successful reconcile with distinct ids and no id posted twice, the row named by each truthy id is live and holds exactly the update of that entry, slug aside |
| Reconcile.UpdateRiskModel | risk_model_api/v1/serializers.py:140-155 | an unknown model is not found and changes nothing; a rejected payload changes nothing; otherwise only that model's row changes, with name and button written and the other columns written only when present; the fields are reconciled, no row is removed, and model names stay unique |
| Reconcile.UpdateRiskModelWrites | risk_model_api/v1/serializers.py:140-172 | after a successful update with distinct ids and no id posted twice, the field row named by each truthy id is live and holds exactly the update of that entry, slug aside |
| Reconcile.InsertByOrder | risk_model_api/v1/serializers.py:204-206 | inserting into a list sorted by order keeps it sorted and adds exactly the element |
| Reconcile.SortByOrder | risk_model_api/v1/serializers.py:204-206 | the result is sorted by `order` and is a permutation of the input |
| Reconcile.Representation | risk_model_api/v1/serializers.py:199-207 | the representation lists exactly the model's live fields, sorted by `order` |
| Values.RuleFor | risk_model_api/v1/serializers.py:219-287 | a rule is selected iff the tag is registered; every rule but the boolean one allows null iff the field is optional; the boolean one never does; a rule cannot be built exactly for a choice tag with null choices |
| Values.RuleForCoversRegistry | risk_model_api/v1/serializers.py:225-287 | the dispatch selects a rule exactly for the tags of the `FIELD_TYPES` pairs |
| Values.ApplyRule | risk_model_api/v1/serializers.py:225-283 | null is accepted (as null) iff the rule allows it, else the null message; any other value is accepted iff the parser accepts it |
| Values.HasDuplicate | risk_model_api/v1/serializers.py:295-299 | true iff a stored value of the field equals the value under a successful submission |
| Values.ValidateValue | risk_model_api/v1/serializers.py:219-319 | an unregistered tag gives only the `"fields"` error; a select, radio or multiselect field with null choices raises `TypeError`; otherwise a parser rejection is the `"value"` error, and an accepted value is returned unless it duplicates a successful submission's value of a unique field, which is rejected under the field's name |
| Values.NullAcceptedIffOptional | risk_model_api/v1/serializers.py:225-283 | for a registered non-boolean field with buildable choices, null is accepted exactly when the field is optional, with the null message otherwise; with null choices it raises `TypeError` |
| Values.DuplicateRejected | risk_model_api/v1/serializers.py:293-307 | a value equal to one under a successful submission of a unique field is rejected, keyed by the field's name |
| Values.FailedSubmissionsIgnored | risk_model_api/v1/serializers.py:295-299 | adding values under unsuccessful submissions never changes a validation verdict |
| Submissions.BuildValue | risk_model_api/utils/serializer_helpers.py:29-41 | `""` becomes null, a null boolean becomes false, anything else passes through |
| Submissions.BuildValueIdempotent | risk_model_api/utils/serializer_helpers.py:33-35 | building a built value changes nothing |
| Submissions.MissingRequired | risk_model_api/v1/serializers.py:371-375 | none is missing iff every required field's slug is present; a reported field is required and missing |
| Submissions.CheckRequired | risk_model_api/v1/serializers.py:364-376 | an unknown model raises; success iff every required live field's slug is in the data; otherwise the error names a missing required field |
| Submissions.AtMostOneLive | risk_model_api/utils/utils.py:74 | with unique live slugs, at most one live field carries a slug |
| Submissions.LookupLiveSlug | risk_model_api/utils/serializer_helpers.py:55 | a found field is live with that slug; not found iff no live field has it; with unique live slugs it never finds several |
| Submissions.RenameValueKey | risk_model_api/utils/serializer_helpers.py:73-80 | a `"value"` error is moved under the field's name with the other keys kept; any other dictionary is unchanged |
| Submissions.StoreFileAsWritten | risk_model_api/utils/serializer_helpers.py:66-69 | an upload is stored and its locator kept; any other value raises `AttributeError` |
| Submissions.StoreFile | risk_model_api/utils/serializer_helpers.py:66-69 | an accepted null file value stays null; otherwise the upload is stored |
| Submissions.OptionalEmptyFileFails | risk_model_api/utils/serializer_helpers.py:33-69 | an empty value for an optional file field passes validation as null; the code as written then raises, and the corrected storing keeps null |
| Submissions.ProcessEntry | risk_model_api/utils/serializer_helpers.py:55-80 | a lookup failure propagates; a validation error is raised with `"value"` renamed; an accepted value is returned with its live field; a file value is stored from the raw request value, which raises `AttributeError` unless it is an upload, except that the corrected storing keeps an accepted null |
| Submissions.StoreRows | risk_model_api/utils/serializer_helpers.py:53-82 | the rows are built iff every entry passes, one row per entry with consecutive ids; otherwise the first failing entry's error |
| Submissions.ProcessEntries | risk_model_api/utils/serializer_helpers.py:53-82 | succeeds iff every entry passes; then one row per entry, with the next ids, the submission, and the live field of the entry's slug |
| Submissions.Logged | risk_model_api/utils/serializer_helpers.py:48-50 | the submission row is appended with `success = false` and nothing else changes |
| Submissions.Submit | risk_model_api/utils/serializer_helpers.py:43-91 | the submission is logged before validation; on failure only that row is added; on success one value per entry is appended, the submission is successful, and the receipt carries its id, model, name and time |
| Submissions.SubmitAcceptsIffAllPass | risk_model_api/utils/serializer_helpers.py:54-84 | a submission succeeds exactly when every entry passes against the store after logging |
| Submissions.Process | risk_model_api/v1/views.py:37-49 | the store is untouched exactly when the required check fails; a request is accepted iff the check passes and every entry passes on its own, and then every required live field was present, one successful submission is logged and one value per entry is appended |
| Submissions.ValidAfterAppend | risk_model_api/utils/serializer_helpers.py:48-84 | appending a submission and value rows with the next ids and existing foreign keys keeps the store well formed |
| Submissions.SubmitPreservesValid | risk_model_api/utils/serializer_helpers.py:43-91 | processing a submission keeps ids sequential and foreign keys resolvable |
| Submissions.ProcessPreservesValid | risk_model_api/v1/views.py:37-49 | the whole request keeps the store well formed |
| FormParse.Get | risk_model_api/utils/utils.py:47 | a key has no entry iff it is not in the dictionary |
| FormParse.Put | risk_model_api/utils/utils.py:48-56 | after assignment the key maps to the value, every other key is unchanged, and a new key is appended at the end |
| FormParse.PutKeepsUnique | risk_model_api/utils/utils.py:48-56 | assignment keeps keys unique |
| FormParse.IndexOf | risk_model_api/utils/utils.py:41-42 | `str.index`: the first position of the character |
| FormParse.SplitKeyInverse | risk_model_api/utils/utils.py:41-46 | `outer[inner]…` splits back into `outer` and `inner` |
| FormParse.AddPair | risk_model_api/utils/utils.py:39-56 | succeeds iff a plain key has a value and a nested key's outer entry is absent or a dictionary (with a value unless the key ends in `[]`); a nested key is merged into the existing or a new dictionary under its outer key, writing the inner key (the whole list for `[]`, else the first value) and keeping every other inner and outer key; a group key over a plain value raises `TypeError`; keys stay unique |
| FormParse.NestedFieldParse | risk_model_api/utils/utils.py:26-57 | the parsed dictionary has unique keys |
| FormParse.PlainKeyTakesFirst | risk_model_api/utils/utils.py:55-56 | a key without brackets maps to its first value |
| FormParse.NestedKeyShapes | risk_model_api/utils/utils.py:39-54 | `outer[inner]` gives `{outer: {inner: first}}` and `outer[inner][]` gives `{outer: {inner: list}}` |
| FormParse.SharedPrefixMerges | risk_model_api/utils/utils.py:47-48 | two keys sharing an outer key merge into one nested dictionary, in order |
| FormParse.QuerydictToDict | risk_model_api/utils/serializer_helpers.py:20-27 | multipart data is re-parsed; a parsed JSON object is returned unchanged |
| Views.Reverse | risk_model_api/v1/views.py:77-79 | the rows in reverse order, with the same members |
| Views.FilterAscending | risk_model_api/v1/views.py:55-57 | filtering keeps the ascending id order |
| Views.SubmissionLog | risk_model_api/v1/views.py:72-83 | exactly the successful submissions, of the given model when one is given, by descending id |
| Views.FilePrefix | risk_model_api/v1/serializers.py:337-349 | external storage uses `STATIC_URL`; file-system storage uses the request's scheme and host |
| Views.GetValue | risk_model_api/v1/serializers.py:335-350 | non-file values are returned verbatim; file values become the prefix followed by the stored text |
| Views.FileUrlKeepsLocator | risk_model_api/v1/serializers.py:335-350 | the stored locator is the file URL with its prefix removed |
| Views.Row | risk_model_api/v1/serializers.py:322-333 | a row carries the value's id, its field's name and type (deleted fields included) and the projected value |
| Views.SubmissionValues | risk_model_api/v1/views.py:55-57 | exactly the values of the submission, by ascending id |
| Views.Retrieve | risk_model_api/v1/views.py:51-62 | one projected row per value of the submission, by ascending id |
| Views.FieldTypesView | risk_model_api/v1/views.py:24-29 | the field-type choices, from which the registry pairs read back exactly |
| Views.RiskModelListing | risk_model_api/v1/views.py:22 | every risk model, by descending id |
| WebUtils.IndexOf | web-app/src/utils.js:29 | `indexOf`: the first position of the element |
| WebUtils.Splice2 | web-app/src/utils.js:38 | a two-element splice writes the pair at the start and keeps everything else |
| WebUtils.Move | web-app/src/utils.js:28-39 | the array is unchanged when the new position is before the start or at the end |
| WebUtils.MoveSwaps | web-app/src/utils.js:35-38 | a unit move inside the array swaps the element with its neighbour, keeps every other position, and is a permutation |
| WebUtils.MoveRoundTrip | web-app/src/utils.js:28-39 | for an element occurring once, moving by delta and then by -delta restores the array |
| WebUtils.MoveAtEdgesIsNoOp | web-app/src/utils.js:32-33 | moving the first element up or the last down changes nothing |
| WebUtils.RefreshFieldOrder | web-app/src/utils.js:46-50 | element i gets order i + 1, nothing else changes and the elements keep their places |
| WebUtils.RefreshedOrderValidates | web-app/src/utils.js:46-50 | a renumbered non-empty list passes the order check, and the list checks then pass iff the names are distinct |
| WebUtils.RefreshIdempotent | web-app/src/utils.js:46-50 | renumbering twice is renumbering once |
| WebUtils.NullBlankFields | web-app/src/utils.js:7-19 | raises exactly when it meets null, or a non-blank `fields` member that is not a list, at any level it visits; otherwise keys are kept, blank members become null, members other than `fields` are untouched, and a `fields` list keeps its length with each element rewritten |
| WebUtils.BlankIdempotent | web-app/src/utils.js:9-16 | the rewrite applied twice equals the rewrite applied once |
| WebUtils.BlankKeepsSafe | web-app/src/utils.js:9-16 | a value that does not raise and has no blank `fields` member still does not raise once rewritten |
| WebUtils.NullBlankFieldsIdempotent | web-app/src/utils.js:7-19 | when the first call succeeds and no `fields` member is blank, a second call returns the same object |
| WebUtils.BlankFieldsMemberRaisesOnSecondPass | web-app/src/utils.js:10-15 | `{fields: ""}` becomes `{fields: null}`, on which a second call raises |

## Left out

- Library internals are parameters:
  - DRF's per-type parsers (e-mail, URL, date, time, integer, boolean, choice, list, regex and file fields);
  - Django's `slugify`;
  - file storage and the clock.

  Only the dispatch, null handling, error keys and the code around them are modelled.
- `float` values: their parsing is floating point. It sits behind the same parser parameter.
- `store_file`'s storage I/O (S3 or the file system) and `generate_inmemory_text_file`, a test helper. The storage is a function from file name to locator.
- Persistence, transactions and concurrency. The check-then-insert races on unique values and on unique risk-model names, and the database's protect-on-delete, are not modelled. Reconciliation is not claimed to be all-or-nothing: a not-found id leaves the updates made before it in place, as the code does.
- Parsing of the request envelope (`risk_model` as an integer, `risk_model_name` up to 255 characters, `data` as a dictionary). The model starts from the parsed `Request`.
- HTTP routing and viewset plumbing, settings, the migration, the management command, the Axios services, the Vue router and the tests.
- `FIELD_MAX_LENGTH` comes from a settings file that is not part of this model. It is taken as 1000.
- WebUtils.Move: requires the element to be in the array and the delta not to overshoot the end by more than one. Otherwise the JavaScript splice writes `undefined` entries, which a sequence cannot hold. The front end only passes -1 and +1.
- WebUtils.NullBlankFieldsIdempotent: stated only when no `fields` member is blank, because `{fields: ""}` becomes `{fields: null}` and then raises (BlankFieldsMemberRaisesOnSecondPass).
- Views.SubmissionLog: the `risk_model` query parameter is taken as an integer. A non-numeric value, which makes the database filter raise, is not modelled.
- Views.Row: requires a well-formed store and a stored value, because the database's foreign keys guarantee the value's field exists.
- Views.Retrieve: requires a well-formed store for the same reason.
- Submissions.SubmitPreservesValid: requires the submission's model to exist, which the required-field check establishes before submission (ProcessPreservesValid covers the whole request).
- Slugs.UniqueSlugLength: requires the counter's decimal text to be shorter than 255 characters, a bound no real store reaches.
- Reconcile.CreateFields: an update entry carrying `"id": 0` is set aside as new, because 0 is falsy. The code then creates it with the explicit primary key 0, since the serializer's optional `id` survives into `create`. The model gives every created row the next id, because its store keeps ids as positions plus one.
- Reconcile.ReconcileFields: inherits the `"id": 0` case above. A created row is given the next id, not 0.
- Schema.ValidateFieldData: the required and null errors of the column types are not modelled. A definition always carries a `name`, a `field_type` and a non-negative `order`, and its `id`, `required` and `unique` are absent or given, never null. DRF's "This field is required.", "This field may not be null." and the negative-`order` message therefore have no counterpart. The upper bound 2147483647 of the `order` column is modelled, by `Schema.OrderMessages`.
- Schema.ValidateSchema: a null item in the `fields` list, or an item that is not a dictionary, is not modelled. It also inherits the required and null gaps of `Schema.ValidateFieldData`.
- Reconcile.ValidateModelData: a missing or null `name`, `button` or `fields` (DRF's required and null errors) is not modelled. The payload always carries them. A null `activated` is not modelled either: the column is not nullable, so DRF refuses it with "This field may not be null.", and `ModelData` can only leave it absent or give a boolean.
- Reconcile.UpdateFieldsWrites: the written values are stated only when ids are distinct and no truthy id is posted twice. With a repeated id, the later entry writes over the earlier one. The same holds for `Reconcile.ReconcileFieldsWrites` and `Reconcile.UpdateRiskModelWrites`, which carry the write property of `Reconcile.ReconcileFields` and `Reconcile.UpdateRiskModel`.
- Schema.TextMessages: DRF's trimming of surrounding whitespace and its null-character check are not modelled. A text is checked as given.
- Schema.ItemMessages: the messages of failing `choices` items are listed one after another, not keyed by item index as DRF's list field reports them.
- Reconcile.SoftDeleteUnkept: rows are saved in table order. The code's queryset has no order, and the order only decides which generated slug each newly deleted row without a slug receives.
- Reconcile.Representation: does not state the relative order of fields with equal `order`, which Python's stable sort keeps.
- Submissions.CheckRequired: its contract says only that some missing required field is named. The code names the first one in `fields.all()` order, which is the database's order.

## Findings

| source | as written | input that shows it | evidently intended | confidence | as-written member | corrected member |
|---|---|---|---|---|---|---|
| risk_model_api/utils/serializer_helpers.py:66-69 | a validated file value is replaced by `store_file(value)` on the raw request value, which reads `value.name` | an optional (`required = false`) file field submitted as `""`: `build_field_value_object` turns it into null, `FileField(allow_null=True)` accepts it, then `store_file("")` raises `AttributeError` and the request fails with a server error | an accepted null file value is stored as null | not executed | Submissions.StoreFileAsWritten, Submissions.OptionalEmptyFileFails | Submissions.StoreFile, Submissions.ProcessEntry |

=== FILE: decimal.dfy ===
/** Python's `str(n)` for natural numbers: the decimal digits without sign or padding. */
module Decimal {

  predicate IsDigit(c: char) {
    '0' <= c <= '9'
  }

  function DigitChar(d: nat): (c: char)
    requires d < 10
    ensures IsDigit(c)
    ensures c as int - '0' as int == d
  {
    ('0' as int + d) as char
  }

  /** The decimal representation of `n`. */
  function Digits(n: nat): (s: string)
    ensures |s| >= 1
    ensures forall i | 0 <= i < |s| :: IsDigit(s[i])
    decreases n
  {
    if n < 10 then [DigitChar(n)] else Digits(n / 10) + [DigitChar(n % 10)]
  }

  /** Different numbers print differently, so a printed counter identifies its value. */
  lemma {:induction false} DigitsInjective(a: nat, b: nat)
    requires Digits(a) == Digits(b)
    ensures a == b
    decreases a
  {
    var da, db := Digits(a), Digits(b);
    if a < 10 && b < 10 {
      assert DigitChar(a) == da[0] == db[0] == DigitChar(b);
    } else if a >= 10 && b >= 10 {
      assert da[|da| - 1] == DigitChar(a % 10);
      assert db[|db| - 1] == DigitChar(b % 10);
      assert da[..|da| - 1] == Digits(a / 10);
      assert db[..|db| - 1] == Digits(b / 10);
      DigitsInjective(a / 10, b / 10);
    }
  }

  /** A larger number never prints shorter. */
  lemma {:induction false} DigitsLengthMonotone(a: nat, b: nat)
    requires a <= b
    ensures |Digits(a)| <= |Digits(b)|
    decreases b
  {
    if a >= 10 {
      DigitsLengthMonotone(a / 10, b / 10);
    }
  }
}

=== FILE: formparse.dfy ===
/** Parsing multipart form keys such as `data[slug]` and `data[slug][]` into nested dictionaries
    (`nested_field_parse`, `RiskDataProcessor.querydict_to_dict`). */
module FormParse {
  import opened Results
  import opened Errors
  import opened Values

  /** A parsed dictionary value: one submitted item, a whole list of them, or a nested dictionary. */
  datatype Value = One(item: Raw) | Many(items: seq<Raw>) | Group(entries: seq<(string, Value)>)

  /** A Python dictionary as its entries in insertion order. */
  type Dict = seq<(string, Value)>

  /** Whether `k` is a key of the dictionary. */
  predicate HasKey(d: Dict, k: string) {
    exists i | 0 <= i < |d| :: d[i].0 == k
  }

  /** No key occurs twice. */
  predicate UniqueKeys(d: Dict) {
    forall i, j | 0 <= i < j < |d| :: d[i].0 != d[j].0
  }

  /** `d.get(k)`. */
  function Get(d: Dict, k: string): (r: Option<Value>)
    ensures r.None? <==> !HasKey(d, k)
  {
    if |d| == 0 then None
    else if d[0].0 == k then Some(d[0].1)
    else
      var r := Get(d[1..], k);
      assert forall i | 1 <= i < |d| :: d[1..][i - 1] == d[i];
      r
  }

  /** `d[k] = v`: an existing key keeps its position and gets the new value; a new key goes last. */
  function Put(d: Dict, k: string, v: Value): (r: Dict)
    ensures Get(r, k) == Some(v)
    ensures forall x | x != k :: Get(r, x) == Get(d, x)
    ensures HasKey(d, k) ==> |r| == |d|
    ensures !HasKey(d, k) ==> r == d + [(k, v)]
  {
    if |d| == 0 then [(k, v)]
    else if d[0].0 == k then [(k, v)] + d[1..]
    else
      var rest := Put(d[1..], k, v);
      var r := [d[0]] + rest;
      assert r[1..] == rest;
      assert HasKey(d, k) <==> HasKey(d[1..], k) by {
        if HasKey(d, k) {
          var i :| 0 <= i < |d| && d[i].0 == k;
          assert d[1..][i - 1].0 == k;
        }
        if HasKey(d[1..], k) {
          var i :| 0 <= i < |d[1..]| && d[1..][i].0 == k;
          assert d[i + 1].0 == k;
        }
      }
      r
  }

  /** A key of the dictionary is one that `Get` finds. */
  lemma HasKeyIffGet(d: Dict, x: string)
    ensures HasKey(d, x) <==> Get(d, x).Some?
  {
  }

  /** Assignment never duplicates a key. */
  lemma {:induction false} PutKeepsUnique(d: Dict, k: string, v: Value)
    ensures UniqueKeys(d) ==> UniqueKeys(Put(d, k, v))
    decreases |d|
  {
    var r := Put(d, k, v);
    if !UniqueKeys(d) {
    } else if |d| > 0 && d[0].0 == k {
      assert forall i | 1 <= i < |d| :: r[i] == d[i];
    } else if |d| > 0 {
      var tail := d[1..];
      var rest := Put(tail, k, v);
      assert UniqueKeys(tail) by {
        assert forall i | 0 <= i < |tail| :: tail[i] == d[i + 1];
      }
      PutKeepsUnique(tail, k, v);
      assert !HasKey(tail, d[0].0);
      HasKeyIffGet(tail, d[0].0);
      HasKeyIffGet(rest, d[0].0);
      assert r == [d[0]] + rest;
      forall i, j | 0 <= i < j < |r|
        ensures r[i].0 != r[j].0
      {
        if i == 0 {
          assert r[j] == rest[j - 1];
        } else {
          assert r[i] == rest[i - 1] && r[j] == rest[j - 1];
        }
      }
    }
  }

  /** The position of the first occurrence of `c` in `s`, as Python's `s.index(c)`. */
  function IndexOf(s: string, c: char): (r: Option<nat>)
    ensures r.None? <==> c !in s
    ensures r.Some? ==> r.value < |s| && s[r.value] == c && c !in s[..r.value]
  {
    if |s| == 0 then None
    else if s[0] == c then Some(0)
    else match IndexOf(s[1..], c)
      case None => None
      case Some(k) =>
        assert s[..k + 1] == [s[0]] + s[1..][..k];
        Some(k + 1)
  }

  /** Python's slice `s[a:b]` for `0 <= a` and `b <= |s|`: empty when `a >= b`. */
  function Slice(s: string, a: nat, b: nat): (r: string)
    requires b <= |s|
    ensures a < b ==> r == s[a..b]
    ensures a >= b ==> r == ""
  {
    if a < b then s[a..b] else ""
  }

  /** The key contains both a `[` and a `]`. */
  predicate IsNested(key: string) {
    '[' in key && ']' in key
  }

  /** The outer key (before the first `[`) and the inner key (between the first `[` and the first
      `]`, empty when that `]` comes first). */
  function SplitKey(key: string): (r: (string, string))
    requires IsNested(key)
    ensures '[' !in r.0
  {
    var l := IndexOf(key, '[').value;
    var r := IndexOf(key, ']').value;
    (key[..l], Slice(key, l + 1, r))
  }

  /** The first occurrence of `c` in `p + [c] + rest`, when `p` has none, is right after `p`. */
  lemma {:induction false} IndexOfAfterPrefix(p: string, c: char, rest: string)
    requires c !in p
    ensures IndexOf(p + [c] + rest, c) == Some(|p|)
    decreases |p|
  {
    var s := p + [c] + rest;
    if |p| > 0 {
      assert s[0] == p[0] && s[1..] == p[1..] + [c] + rest;
      IndexOfAfterPrefix(p[1..], c, rest);
    }
  }

  /** Splitting recovers the parts a nested key was built from. */
  lemma SplitKeyInverse(outer: string, inner: string, suffix: string)
    requires '[' !in outer && ']' !in outer && '[' !in inner && ']' !in inner
    ensures IsNested(outer + "[" + inner + "]" + suffix)
    ensures SplitKey(outer + "[" + inner + "]" + suffix) == (outer, inner)
  {
    var key := outer + "[" + inner + "]" + suffix;
    var head := outer + "[" + inner;
    assert key == outer + ['['] + (inner + "]" + suffix);
    IndexOfAfterPrefix(outer, '[', inner + "]" + suffix);
    assert ']' !in head;
    assert key == head + [']'] + suffix;
    IndexOfAfterPrefix(head, ']', suffix);
    assert key[..|outer|] == outer;
    assert key[|outer| + 1..|head|] == inner;
    assert Slice(key, |outer| + 1, |head|) == inner;
  }

  /** Python's `key[-2:] == "[]"`. */
  predicate EndsWithBrackets(key: string) {
    |key| >= 2 && key[|key| - 2..] == "[]"
  }

  /** One `(key, values)` pair of `QueryDict.lists()` added to the result. A plain key takes its first
      value; a nested key goes into the dictionary under its outer key, taking the whole list when it
      ends in `[]`. Indexing an empty list and assigning into a plain value are the Python errors. */
  function AddPair(data: Dict, key: string, values: seq<Raw>): (r: Result<Dict, Error>)
    ensures !IsNested(key) && |values| > 0 ==> r == Ok(Put(data, key, One(values[0])))
    ensures IsNested(key) && EndsWithBrackets(key) && Get(data, SplitKey(key).0).None? ==>
      r == Ok(Put(data, SplitKey(key).0, Group([(SplitKey(key).1, Many(values))])))
    ensures IsNested(key) && Get(data, SplitKey(key).0).Some? && !Get(data, SplitKey(key).0).value.Group? ==>
      r == Err(Unhandled("TypeError"))
    ensures IsNested(key) && (EndsWithBrackets(key) || |values| > 0) && Get(data, SplitKey(key).0).Some? && Get(data, SplitKey(key).0).value.Group? ==>
      var g := Get(data, SplitKey(key).0).value.entries;
      r == Ok(Put(data, SplitKey(key).0,
        Group(Put(g, SplitKey(key).1, if EndsWithBrackets(key) then Many(values) else One(values[0])))))
    ensures r.Ok? <==>
      && (!IsNested(key) ==> |values| > 0)
      && (IsNested(key) ==>
            && (Get(data, SplitKey(key).0).None? || Get(data, SplitKey(key).0).value.Group?)
            && (EndsWithBrackets(key) || |values| > 0))
    ensures IsNested(key) && r.Ok? ==>
      var before := Get(data, SplitKey(key).0).GetOr(Group([]));
      var after := Get(r.value, SplitKey(key).0);
      && (forall k | k != SplitKey(key).0 :: Get(r.value, k) == Get(data, k))
      && before.Group? && after.Some? && after.value.Group?
      && (forall k | k != SplitKey(key).1 :: Get(after.value.entries, k) == Get(before.entries, k))
      && (EndsWithBrackets(key) ==> Get(after.value.entries, SplitKey(key).1) == Some(Many(values)))
      && (!EndsWithBrackets(key) ==> |values| > 0 && Get(after.value.entries, SplitKey(key).1) == Some(One(values[0])))
    ensures r.Ok? && UniqueKeys(data) ==> UniqueKeys(r.value)
  {
    if !IsNested(key) then
      if |values| == 0 then Err(Unhandled("IndexError"))
      else
        PutKeepsUnique(data, key, One(values[0]));
        Ok(Put(data, key, One(values[0])))
    else
      var (outer, inner) := SplitKey(key);
      match Get(data, outer).GetOr(Group([]))
      case Group(g) =>
        if EndsWithBrackets(key) then
          PutKeepsUnique(data, outer, Group(Put(g, inner, Many(values))));
          Ok(Put(data, outer, Group(Put(g, inner, Many(values)))))
        else if |values| == 0 then Err(Unhandled("IndexError"))
        else
          PutKeepsUnique(data, outer, Group(Put(g, inner, One(values[0]))));
          Ok(Put(data, outer, Group(Put(g, inner, One(values[0])))))
      case _ => Err(Unhandled("TypeError"))
  }

  /** `nested_field_parse`: the pairs of `QueryDict.lists()` folded into a dictionary in order. */
  function NestedFieldParse(lists: seq<(string, seq<Raw>)>): (r: Result<Dict, Error>)
    ensures r.Ok? ==> UniqueKeys(r.value)
    decreases |lists|
  {
    NestedFrom([], lists)
  }

  /** The fold of `nested_field_parse` from a partial result. */
  function NestedFrom(data: Dict, lists: seq<(string, seq<Raw>)>): (r: Result<Dict, Error>)
    ensures UniqueKeys(data) && r.Ok? ==> UniqueKeys(r.value)
    decreases |lists|
  {
    if |lists| == 0 then Ok(data)
    else
      var next :- AddPair(data, lists[0].0, lists[0].1);
      NestedFrom(next, lists[1..])
  }

  /** One step of the fold. */
  lemma NestedFromStep(data: Dict, key: string, values: seq<Raw>, more: seq<(string, seq<Raw>)>)
    ensures AddPair(data, key, values).Err? ==>
      NestedFrom(data, [(key, values)] + more) == Err(AddPair(data, key, values).error)
    ensures AddPair(data, key, values).Ok? ==>
      NestedFrom(data, [(key, values)] + more) == NestedFrom(AddPair(data, key, values).value, more)
  {
    assert ([(key, values)] + more)[1..] == more;
  }

  /** A plain key maps to its first value. */
  lemma PlainKeyTakesFirst(key: string, values: seq<Raw>)
    requires !IsNested(key) && |values| > 0
    ensures NestedFieldParse([(key, values)]) == Ok([(key, One(values[0]))])
  {
    NestedFromStep([], key, values, []);
    assert [(key, values)] + [] == [(key, values)];
  }

  /** A key ending in `]` after a non-empty inner key without brackets does not end in `[]`. */
  lemma ClosedKeyIsSingle(outer: string, inner: string)
    requires |inner| > 0 && '[' !in inner
    ensures !EndsWithBrackets(outer + "[" + inner + "]")
  {
    var key := outer + "[" + inner + "]";
    assert key[|key| - 2] == inner[|inner| - 1];
    assert key[|key| - 2..][0] == key[|key| - 2];
  }

  /** Adding `outer[inner]` to a dictionary without `outer` creates it holding the first value. */
  lemma AddSingle(data: Dict, outer: string, inner: string, values: seq<Raw>)
    requires '[' !in outer && ']' !in outer && '[' !in inner && ']' !in inner && inner != ""
    requires |values| > 0 && !HasKey(data, outer)
    ensures AddPair(data, outer + "[" + inner + "]", values) == Ok(data + [(outer, Group([(inner, One(values[0]))]))])
  {
    var key := outer + "[" + inner + "]";
    SplitKeyInverse(outer, inner, "");
    assert key == outer + "[" + inner + "]" + "";
    ClosedKeyIsSingle(outer, inner);
  }

  /** Adding `outer[inner][]` to a dictionary without `outer` creates it holding the whole list. */
  lemma AddListed(data: Dict, outer: string, inner: string, values: seq<Raw>)
    requires '[' !in outer && ']' !in outer && '[' !in inner && ']' !in inner
    requires !HasKey(data, outer)
    ensures AddPair(data, outer + "[" + inner + "][]", values) == Ok(data + [(outer, Group([(inner, Many(values))]))])
  {
    var key := outer + "[" + inner + "][]";
    SplitKeyInverse(outer, inner, "[]");
    assert key == outer + "[" + inner + "]" + "[]";
    assert EndsWithBrackets(key) by {
      assert key[|key| - 2..] == "[]";
    }
    HasKeyIffGet(data, outer);
    assert SplitKey(key) == (outer, inner);
  }

  /** `outer[inner]` maps to a dictionary holding the first value under the inner key, and
      `outer[inner][]` to one holding the whole list. */
  lemma NestedKeyShapes(outer: string, inner: string, values: seq<Raw>)
    requires '[' !in outer && ']' !in outer && '[' !in inner && ']' !in inner
    requires |values| > 0
    ensures inner != "" ==>
      NestedFieldParse([(outer + "[" + inner + "]", values)]) == Ok([(outer, Group([(inner, One(values[0]))]))])
    ensures NestedFieldParse([(outer + "[" + inner + "][]", values)]) == Ok([(outer, Group([(inner, Many(values))]))])
  {
    var single := outer + "[" + inner + "]";
    var listed := outer + "[" + inner + "][]";
    if inner != "" {
      AddSingle([], outer, inner, values);
      NestedFromStep([], single, values, []);
      assert [(single, values)] + [] == [(single, values)];
    }
    AddListed([], outer, inner, values);
    NestedFromStep([], listed, values, []);
    assert [(listed, values)] + [] == [(listed, values)];
  }

  /** Adding `outer[inner]` when `outer` already holds a dictionary without `inner` extends it. */
  lemma AddSingleToGroup(outer: string, g: Dict, inner: string, v: Raw)
    requires '[' !in outer && ']' !in outer && '[' !in inner && ']' !in inner && inner != ""
    requires !HasKey(g, inner)
    ensures AddPair([(outer, Group(g))], outer + "[" + inner + "]", [v]) == Ok([(outer, Group(g + [(inner, One(v))]))])
  {
    var key := outer + "[" + inner + "]";
    SplitKeyInverse(outer, inner, "");
    assert key == outer + "[" + inner + "]" + "";
    ClosedKeyIsSingle(outer, inner);
    var data := [(outer, Group(g))];
    assert Get(data, outer) == Some(Group(g));
    assert Put(data, outer, Group(g + [(inner, One(v))])) == [(outer, Group(g + [(inner, One(v))]))];
  }

  /** Folding two pairs is adding the first, then the second. */
  lemma FoldTwo(data: Dict, k1: string, v1: seq<Raw>, d1: Dict, k2: string, v2: seq<Raw>, d2: Dict)
    ensures AddPair(data, k1, v1) == Ok(d1) && AddPair(d1, k2, v2) == Ok(d2) ==>
      NestedFrom(data, [(k1, v1), (k2, v2)]) == Ok(d2)
  {
    NestedFromStep(data, k1, v1, [(k2, v2)]);
    NestedFromStep(d1, k2, v2, []);
    assert [(k1, v1), (k2, v2)] == [(k1, v1)] + [(k2, v2)];
    assert [(k2, v2)] + [] == [(k2, v2)];
  }

  /** Two nested keys sharing an outer key merge into one dictionary, in order. */
  lemma SharedPrefixMerges(outer: string, a: string, b: string, x: Raw, y: Raw)
    requires '[' !in outer && ']' !in outer
    requires '[' !in a && ']' !in a && '[' !in b && ']' !in b
    requires a != b && a != "" && b != ""
    ensures NestedFieldParse([(outer + "[" + a + "]", [x]), (outer + "[" + b + "]", [y])])
      == Ok([(outer, Group([(a, One(x)), (b, One(y))]))])
  {
    var g := [(a, One(x))];
    var first := [(outer, Group(g))];
    AddSingle([], outer, a, [x]);
    assert [] + first == first;
    assert !HasKey(g, b);
    AddSingleToGroup(outer, g, b, y);
    assert g + [(b, One(y))] == [(a, One(x)), (b, One(y))];
    FoldTwo([], outer + "[" + a + "]", [x], first, outer + "[" + b + "]", [y], [(outer, Group([(a, One(x)), (b, One(y))]))]);
  }

  /** A request body: multipart form data (a `QueryDict`) or an already-parsed JSON object. */
  datatype Body = Multipart(lists: seq<(string, seq<Raw>)>) | Json(parsed: Dict)

  /** `querydict_to_dict`: only multipart data is re-parsed; a JSON object is returned unchanged. */
  function QuerydictToDict(body: Body): (r: Result<Dict, Error>)
    ensures body.Json? ==> r == Ok(body.parsed)
    ensures body.Multipart? ==> r == NestedFieldParse(body.lists)
  {
    match body
    case Multipart(lists) => NestedFieldParse(lists)
    case Json(parsed) => Ok(parsed)
  }
}

=== FILE: reconcile.dfy ===
/** Creating a risk model with its fields, and reconciling the field set on update
    (`RiskModelSerializer.create/update/update_fields/delete_fields/create_fields/to_representation`). */
module Reconcile {
  import opened Results
  import opened Errors
  import opened Store
  import opened Schema
  import opened Slugs

  /** A risk-model payload: the model's own attributes and its field list. The nullable text keys
      and `activated` may be missing from the payload. */
  datatype ModelData = ModelData(
    name: string,
    button: string,
    description: Entry<string>,
    successMsg: Entry<string>,
    activated: Option<bool>,
    fields: seq<FieldData>)

  /** The message of the `UniqueValidator` on `RiskModel.name`. */
  const NameTakenMessage := "risk model with this name already exists."

  /** Another risk model than `self` (the instance being updated, if any) already has the name. */
  predicate NameTaken(models: seq<RiskModel>, self: Option<nat>, name: string) {
    exists m | m in models :: m.name == name && (self.None? || m.id != self.value)
  }

  /** No two risk models share a name. */
  predicate ModelNamesUnique(models: seq<RiskModel>) {
    forall i, j | 0 <= i < j < |models| :: models[i].name != models[j].name
  }

  /** Risk model ids are the positions from 1. */
  predicate SequentialModelIds(models: seq<RiskModel>) {
    forall i | 0 <= i < |models| :: models[i].id == i + 1
  }

  /** The checks of the `name` column: a blank name is refused outright; otherwise the uniqueness
      validator and then the length validator each add their message. */
  function NameMessages(models: seq<RiskModel>, self: Option<nat>, name: string): (r: seq<string>)
    ensures r == [] <==> name != "" && |name| <= MaxCharLength && !NameTaken(models, self, name)
    ensures name != "" && NameTaken(models, self, name) ==> r[0] == NameTakenMessage
  {
    if name == "" then [BlankMessage]
    else
      (if NameTaken(models, self, name) then [NameTakenMessage] else [])
      + TextMessages(name, false, Some(MaxCharLength))
  }

  /** The keys of the risk model's own columns a payload is checked against. */
  const ModelColumnKeys: set<string> := {"name", "button", "description", "success_msg"}

  /** The messages of the checks of one of the risk model's own columns. */
  function ModelColumnMessages(models: seq<RiskModel>, self: Option<nat>, data: ModelData, key: string): seq<string> {
    if key == "name" then NameMessages(models, self, data.name)
    else if key == "button" then TextMessages(data.button, false, Some(MaxCharLength))
    else if key == "description" then EntryMessages(data.description, false, None)
    else if key == "success_msg" then EntryMessages(data.successMsg, false, None)
    else []
  }

  /** Every one of the risk model's own columns accepts its value: a non-blank name of at most 255
      characters that no other risk model has, a non-blank button label of at most 255 characters,
      and no blank description or success message. */
  predicate ModelAttributesValid(models: seq<RiskModel>, self: Option<nat>, data: ModelData) {
    && data.name != "" && |data.name| <= MaxCharLength && !NameTaken(models, self, data.name)
    && data.button != "" && |data.button| <= MaxCharLength
    && data.description != Given("")
    && data.successMsg != Given("")
  }

  /** What each of the risk model's own columns refuses. */
  lemma ModelColumnMessagesMeaning(models: seq<RiskModel>, self: Option<nat>, data: ModelData)
    ensures forall key | key in ModelColumnKeys :: ModelColumnMessages(models, self, data, key) == [] <==>
      match key
      case "name" => data.name != "" && |data.name| <= MaxCharLength && !NameTaken(models, self, data.name)
      case "button" => data.button != "" && |data.button| <= MaxCharLength
      case "description" => data.description != Given("")
      case _ => data.successMsg != Given("")
  {
  }

  /** The errors of the risk model's own columns, each under its key. */
  function ModelAttributeErrors(models: seq<RiskModel>, self: Option<nat>, data: ModelData): (r: Detail)
    ensures r == map[] <==> ModelAttributesValid(models, self, data)
    ensures forall key :: key in r <==> key in ModelColumnKeys && ModelColumnMessages(models, self, data, key) != []
    ensures data.name != "" && NameTaken(models, self, data.name) ==> "name" in r && r["name"] != [] && r["name"][0] == NameTakenMessage
  {
    var r := map key | key in ModelColumnKeys && ModelColumnMessages(models, self, data, key) != [] ::
      ModelColumnMessages(models, self, data, key);
    ModelColumnMessagesMeaning(models, self, data);
    assert r == map[] <==> forall key | key in ModelColumnKeys :: key !in r;
    r
  }

  /** `RiskModelSerializer` validation of a payload: every column and the field list are checked,
      and all their errors are raised together, the per-item field errors under `fields`. */
  function ValidateModelData(models: seq<RiskModel>, self: Option<nat>, data: ModelData): (r: Result<ModelData, Error>)
    ensures r.Ok? <==> ModelAttributesValid(models, self, data) && ValidateSchema(data.fields).Ok?
    ensures r.Ok? ==> r.value == data
    ensures r.Err? ==> r.error.Invalid? || r.error.ItemErrors?
    ensures r.Err? ==> forall key | key in ModelColumnKeys ::
      key in r.error.detail <==> ModelColumnMessages(models, self, data, key) != []
    ensures data.name != "" && NameTaken(models, self, data.name) ==>
      r.Err? && "name" in r.error.detail && r.error.detail["name"] != [] && r.error.detail["name"][0] == NameTakenMessage
    ensures ValidateSchema(data.fields).Err? && ValidateSchema(data.fields).error.ItemErrors? ==>
      r.Err? && r.error.ItemErrors? && r.error.items == ValidateSchema(data.fields).error.items
    ensures ValidateSchema(data.fields).Err? && ValidateSchema(data.fields).error.Invalid? ==>
      r.Err? && r.error.Invalid? && "fields" in r.error.detail
      && r.error.detail["fields"] == ValidateSchema(data.fields).error.detail["fields"]
  {
    var attrs := ModelAttributeErrors(models, self, data);
    var checked := ValidateSchema(data.fields);
    if checked.Ok? then
      if attrs == map[] then Ok(data) else Err(Invalid(attrs))
    else if checked.error.ItemErrors? then Err(ItemErrors(attrs, checked.error.items))
    else
      assert "fields" in checked.error.detail;
      Err(Invalid(attrs["fields" := checked.error.detail["fields"]]))
  }

  /** A name no risk model has keeps names unique when a model carrying it is appended. */
  lemma AppendKeepsNamesUnique(models: seq<RiskModel>, m: RiskModel)
    requires ModelNamesUnique(models) && !NameTaken(models, None, m.name)
    ensures ModelNamesUnique(models + [m])
  {
    assert forall i | 0 <= i < |models| :: models[i] in models;
  }

  /** A name only the model at `k` may have keeps names unique when that model takes it. */
  lemma RenameKeepsNamesUnique(models: seq<RiskModel>, k: nat, m: RiskModel)
    requires k < |models| && SequentialModelIds(models) && ModelNamesUnique(models)
    requires !NameTaken(models, Some(models[k].id), m.name)
    ensures ModelNamesUnique(models[k := m])
  {
    forall i | 0 <= i < |models| && i != k
      ensures models[i].name != m.name
    {
      assert models[i] in models && models[i].id != models[k].id;
    }
  }

  /** The store after an operation, which may hold writes made before a failure, and the verdict. */
  datatype Outcome = Outcome(store: Store, result: Result<nat, Error>)

  /** The column value after writing a nullable key: an absent key keeps the old value. */
  function Write<T>(e: Entry<T>, prior: Option<T>): (r: Option<T>)
    ensures !e.IsPresent() ==> r == prior
    ensures e.IsPresent() ==> r == e.ToOption()
  {
    match e
    case Absent => prior
    case Null => None
    case Given(v) => Some(v)
  }

  /** Writing a validated payload over a field's attributes: every key of the payload is written;
      `slug`, `risk_model` and `deleted` are not keys of it and keep their values. Saving the row
      (`SaveAt`) may then generate a slug. */
  function UpdateField(f: Field, d: FieldData): (r: Field)
    ensures r.id == f.id && r.slug == f.slug && r.riskModel == f.riskModel && r.deleted == f.deleted
    ensures r.name == d.name && r.fieldType == d.fieldType && r.order == d.order
    ensures r.required == (if d.required.Some? then d.required.value else f.required)
    ensures r.unique == (if d.unique.Some? then d.unique.value else f.unique)
    ensures r.default == (if d.default.IsPresent() then d.default.ToOption() else f.default)
    ensures r.regexPattern == (if d.regexPattern.IsPresent() then d.regexPattern.ToOption() else f.regexPattern)
    ensures r.minLength == (if d.minLength.IsPresent() then d.minLength.ToOption() else f.minLength)
    ensures r.maxLength == (if d.maxLength.IsPresent() then d.maxLength.ToOption() else f.maxLength)
    ensures r.choices == (if d.choices.IsPresent() then d.choices.ToOption() else f.choices)
    ensures r.helpText == (if d.helpText.IsPresent() then d.helpText.ToOption() else f.helpText)
  {
    f.(name := d.name,
       fieldType := d.fieldType,
       order := d.order,
       default := Write(d.default, f.default),
       regexPattern := Write(d.regexPattern, f.regexPattern),
       minLength := Write(d.minLength, f.minLength),
       maxLength := Write(d.maxLength, f.maxLength),
       choices := Write(d.choices, f.choices),
       helpText := Write(d.helpText, f.helpText),
       required := d.required.GetOr(f.required),
       unique := d.unique.GetOr(f.unique))
  }

  /** The value a new row holds in a nullable column: the payload's when given, null otherwise. */
  function GivenOrNull<T>(e: Entry<T>): Option<T> {
    if e.Given? then Some(e.value) else None
  }

  /** The nullable columns of a new row are those of its payload, null where the key is absent. */
  predicate NullableFrom(f: Field, d: FieldData) {
    && f.default == GivenOrNull(d.default) && f.regexPattern == GivenOrNull(d.regexPattern)
    && f.minLength == GivenOrNull(d.minLength) && f.maxLength == GivenOrNull(d.maxLength)
    && f.choices == GivenOrNull(d.choices) && f.helpText == GivenOrNull(d.helpText)
  }

  /** A new field row: the model defaults overwritten by the payload, then `save` assigns the slug
      (the payload carries none, so the slug is always generated). */
  function CreatedField(slugify: string -> string, id: nat, riskModel: nat, d: FieldData, taken: set<string>): (f: Field)
    ensures f.id == id && f.riskModel == riskModel && !f.deleted
    ensures f.name == d.name && f.fieldType == d.fieldType && f.order == d.order
    ensures f.required == d.required.GetOr(true) && f.unique == d.unique.GetOr(false)
    ensures NullableFrom(f, d)
    ensures f.slug == UniqueSlug(slugify(d.name), taken) && f.slug !in taken
  {
    var row := UpdateField(NewField(id, riskModel, d.name, "", d.fieldType, d.order), d);
    row.(slug := SaveSlug(slugify, row, taken))
  }

  /** Python truthiness of the optional `id` key. */
  predicate IsTruthyId(id: Option<int>) {
    id.Some? && id.value != 0
  }

  /** The truthy ids of a payload, in order. */
  function TruthyIds(fds: seq<FieldData>): (r: seq<int>)
    ensures forall k :: k in r <==> exists d | d in fds :: IsTruthyId(d.id) && d.id.value == k
  {
    if |fds| == 0 then []
    else if IsTruthyId(fds[0].id) then [fds[0].id.value] + TruthyIds(fds[1..])
    else TruthyIds(fds[1..])
  }

  /** The entries without a truthy id: those to be created. */
  function NewEntries(fds: seq<FieldData>): (r: seq<FieldData>)
    ensures forall d :: d in r <==> d in fds && !IsTruthyId(d.id)
  {
    Filter(fds, (d: FieldData) => !IsTruthyId(d.id))
  }

  /** `after` keeps the rows of `before` with their ids and models, and every non-empty slug. */
  predicate SameKeys(before: seq<Field>, after: seq<Field>) {
    |after| == |before|
    && forall i | 0 <= i < |before| ::
         && after[i].id == before[i].id && after[i].riskModel == before[i].riskModel
         && (before[i].slug != "" ==> after[i].slug == before[i].slug)
  }

  /** Saving leaves live slugs unique when the saved row kept its stored slug and is live only if
      the stored row was. */
  lemma SaveKeepsUnique(slugify: string -> string, fields: seq<Field>, i: nat, row: Field)
    requires i < |fields| && LiveSlugsUnique(fields)
    requires row.slug == fields[i].slug && (!row.deleted ==> !fields[i].deleted)
    ensures LiveSlugsUnique(fields[i := row.(slug := SaveSlug(slugify, row, LiveSlugs(fields)))])
  {
    var saved := row.(slug := SaveSlug(slugify, row, LiveSlugs(fields)));
    var r := fields[i := saved];
    forall j, k | 0 <= j < k < |r| && !r[j].deleted && !r[k].deleted
      ensures r[j].slug != r[k].slug
    {
      if j == i || k == i {
        var other := if j == i then k else j;
        assert r[other] == fields[other] && fields[other].slug in LiveSlugs(fields);
        if row.slug != "" {
          assert other < i ==> fields[other].slug != fields[i].slug;
          assert other > i ==> fields[i].slug != fields[other].slug;
        }
      }
    }
  }

  /** `FieldName.save` of `row` at position `i`: a row without a slug first gets one generated from
      its name against the live slugs as stored before the save, which include the row's own. */
  function SaveAt(slugify: string -> string, fields: seq<Field>, i: nat, row: Field): (r: seq<Field>)
    requires i < |fields|
    ensures |r| == |fields| && forall j | 0 <= j < |fields| && j != i :: r[j] == fields[j]
    ensures r[i].(slug := row.slug) == row
    ensures row.slug != "" ==> r[i].slug == row.slug
    ensures row.slug == "" ==> r[i].slug == UniqueSlug(slugify(row.name), LiveSlugs(fields))
    ensures row.slug == fields[i].slug && !fields[i].deleted ==> r[i].slug != ""
    ensures LiveSlugsUnique(fields) && row.slug == fields[i].slug && (!row.deleted ==> !fields[i].deleted) ==>
      LiveSlugsUnique(r)
  {
    var saved := row.(slug := SaveSlug(slugify, row, LiveSlugs(fields)));
    assert LiveSlugsUnique(fields) && row.slug == fields[i].slug && (!row.deleted ==> !fields[i].deleted) ==>
      LiveSlugsUnique(fields[i := saved]) by {
      if LiveSlugsUnique(fields) && row.slug == fields[i].slug && (!row.deleted ==> !fields[i].deleted) {
        SaveKeepsUnique(slugify, fields, i, row);
      }
    }
    fields[i := saved]
  }

  /** The state `update_fields` leaves: the field rows after in-place updates, the ids it kept, the
      entries it set aside for creation, and the 404 that stopped it, if any. */
  datatype UpdatePass = UpdatePass(fields: seq<Field>, kept: seq<int>, creates: seq<FieldData>, failure: Option<Error>)

  /** What the rest of an update pass promises about the table after one save carries over to the
      table before it, with the saved row's id counted as kept. */
  lemma UpdateStepLifts(fields: seq<Field>, saved: seq<Field>, after: seq<Field>, kept: seq<int>, i: nat)
    requires i < |fields| && !fields[i].deleted
    requires |saved| == |fields| && forall j | 0 <= j < |fields| && j != i :: saved[j] == fields[j]
    requires saved[i].id == fields[i].id && saved[i].deleted == fields[i].deleted
    requires |after| == |saved| && forall j | 0 <= j < |saved| :: after[j].deleted == saved[j].deleted
    requires forall j | 0 <= j < |saved| && saved[j].id !in kept :: after[j] == saved[j]
    requires forall k | k in kept :: exists j | 0 <= j < |saved| :: saved[j].id == k && !saved[j].deleted
    ensures forall j | 0 <= j < |fields| :: after[j].deleted == fields[j].deleted
    ensures forall j | 0 <= j < |fields| && fields[j].id !in [fields[i].id] + kept :: after[j] == fields[j]
    ensures forall k | k in [fields[i].id] + kept ::
      exists j | 0 <= j < |fields| :: fields[j].id == k && !fields[j].deleted
  {
    forall k | k in [fields[i].id] + kept
      ensures exists j | 0 <= j < |fields| :: fields[j].id == k && !fields[j].deleted
    {
      if k != fields[i].id {
        var j :| 0 <= j < |saved| && saved[j].id == k && !saved[j].deleted;
        assert fields[j].id == k && !fields[j].deleted;
      } else {
        assert fields[i].id == k && !fields[i].deleted;
      }
    }
  }

  /** `update_fields`: an entry with a truthy id is written over the live field with that id (of any
      model), which is then saved, or stops with a 404 leaving earlier updates saved; other entries
      are set aside. */
  function UpdateFields(slugify: string -> string, fields: seq<Field>, fds: seq<FieldData>): (r: UpdatePass)
    ensures SameKeys(fields, r.fields)
    ensures forall i | 0 <= i < |fields| :: r.fields[i].deleted == fields[i].deleted
    ensures forall i | 0 <= i < |fields| && fields[i].id !in r.kept :: r.fields[i] == fields[i]
    ensures forall k | k in r.kept :: exists i | 0 <= i < |fields| :: fields[i].id == k && !fields[i].deleted
    ensures r.failure.Some? ==> r.failure.value == NotFound
    decreases |fds|
  {
    if |fds| == 0 then UpdatePass(fields, [], [], None)
    else
      var d := fds[0];
      if IsTruthyId(d.id) then
        match FindFirst(fields, (f: Field) => f.id == d.id.value && !f.deleted)
        case None => UpdatePass(fields, [], [], Some(NotFound))
        case Some(i) =>
          var saved := SaveAt(slugify, fields, i, UpdateField(fields[i], d));
          var rest := UpdateFields(slugify, saved, fds[1..]);
          SameKeysTrans(fields, saved, rest.fields);
          UpdateStepLifts(fields, saved, rest.fields, rest.kept, i);
          rest.(kept := [d.id.value] + rest.kept)
      else
        var rest := UpdateFields(slugify, fields, fds[1..]);
        rest.(creates := [d] + rest.creates)
  }

  /** Updating in place keeps live slugs unique: a row saved without a slug gets one no live row has. */
  lemma {:induction false} UpdateFieldsKeepsUnique(slugify: string -> string, fields: seq<Field>, fds: seq<FieldData>)
    requires LiveSlugsUnique(fields)
    ensures LiveSlugsUnique(UpdateFields(slugify, fields, fds).fields)
    decreases |fds|
  {
    if |fds| > 0 {
      var d := fds[0];
      if IsTruthyId(d.id) {
        match FindFirst(fields, (f: Field) => f.id == d.id.value && !f.deleted)
        case None =>
        case Some(i) =>
          UpdateFieldsKeepsUnique(slugify, SaveAt(slugify, fields, i, UpdateField(fields[i], d)), fds[1..]);
      } else {
        UpdateFieldsKeepsUnique(slugify, fields, fds[1..]);
      }
    }
  }

  /** A pass that found every id kept exactly the payload's truthy ids and set aside exactly the
      entries without one. */
  lemma {:induction false} UpdateFieldsPartition(slugify: string -> string, fields: seq<Field>, fds: seq<FieldData>)
    ensures var r := UpdateFields(slugify, fields, fds);
      r.failure.None? ==> r.kept == TruthyIds(fds) && r.creates == NewEntries(fds)
    decreases |fds|
  {
    if |fds| > 0 {
      var d := fds[0];
      assert fds == [d] + fds[1..];
      if IsTruthyId(d.id) {
        match FindFirst(fields, (f: Field) => f.id == d.id.value && !f.deleted)
        case None =>
        case Some(i) =>
          UpdateFieldsPartition(slugify, SaveAt(slugify, fields, i, UpdateField(fields[i], d)), fds[1..]);
      } else {
        UpdateFieldsPartition(slugify, fields, fds[1..]);
      }
    }
  }

  /** No two rows share an id, as primary keys guarantee. */
  predicate DistinctIds(fields: seq<Field>) {
    forall a, b | 0 <= a < b < |fields| :: fields[a].id != fields[b].id
  }

  /** No truthy id is re-posted twice in one payload. */
  predicate DistinctTruthyIds(fds: seq<FieldData>) {
    forall a, b | 0 <= a < b < |fds| && IsTruthyId(fds[a].id) && IsTruthyId(fds[b].id) :: fds[a].id.value != fds[b].id.value
  }

  /** `after` is `before` with the payload entry written over it, up to a slug the save generated. */
  predicate UpdatedFrom(after: Field, before: Field, d: FieldData) {
    after.(slug := before.slug) == UpdateField(before, d)
  }

  /** One update step followed by the rest of the pass writes each entry over its own row: the first
      entry's row is saved and then left alone, and every other row was untouched by the save. */
  lemma UpdateStepWrites(fields: seq<Field>, saved: seq<Field>, after: seq<Field>, kept: seq<int>, fds: seq<FieldData>, k: nat)
    requires |fds| > 0 && IsTruthyId(fds[0].id) && DistinctTruthyIds(fds) && DistinctIds(fields)
    requires k < |fields| && fields[k].id == fds[0].id.value && !fields[k].deleted
    requires |saved| == |fields| && forall i | 0 <= i < |fields| && i != k :: saved[i] == fields[i]
    requires saved[k].(slug := fields[k].slug) == UpdateField(fields[k], fds[0])
    requires |after| == |saved| && forall i | 0 <= i < |saved| && saved[i].id !in kept :: after[i] == saved[i]
    requires kept == TruthyIds(fds[1..])
    requires forall j, i | 0 <= j < |fds[1..]| && IsTruthyId(fds[1..][j].id) && 0 <= i < |saved| && saved[i].id == fds[1..][j].id.value ::
      !saved[i].deleted && UpdatedFrom(after[i], saved[i], fds[1..][j])
    ensures forall j, i | 0 <= j < |fds| && IsTruthyId(fds[j].id) && 0 <= i < |fields| && fields[i].id == fds[j].id.value ::
      !fields[i].deleted && UpdatedFrom(after[i], fields[i], fds[j])
  {
    var tail := fds[1..];
    forall b | 0 <= b < |tail| && IsTruthyId(tail[b].id)
      ensures tail[b].id.value != fds[0].id.value
    {
      assert tail[b] == fds[b + 1];
    }
    assert saved[k].id !in kept;
    forall j, i | 0 <= j < |fds| && IsTruthyId(fds[j].id) && 0 <= i < |fields| && fields[i].id == fds[j].id.value
      ensures !fields[i].deleted && UpdatedFrom(after[i], fields[i], fds[j])
    {
      if j == 0 {
        assert i == k;
        assert after[k] == saved[k];
      } else {
        assert fds[j] == tail[j - 1];
        assert i != k;
        assert saved[i] == fields[i];
      }
    }
  }

  /** A pass without a missing id writes every entry with a truthy id over the live field with that
      id, when ids are distinct on both sides. */
  lemma {:induction false} UpdateFieldsWrites(slugify: string -> string, fields: seq<Field>, fds: seq<FieldData>)
    ensures var r := UpdateFields(slugify, fields, fds);
      r.failure.None? && DistinctIds(fields) && DistinctTruthyIds(fds) ==>
        forall j, i | 0 <= j < |fds| && IsTruthyId(fds[j].id) && 0 <= i < |fields| && fields[i].id == fds[j].id.value ::
          !fields[i].deleted && UpdatedFrom(r.fields[i], fields[i], fds[j])
    decreases |fds|
  {
    var r := UpdateFields(slugify, fields, fds);
    if |fds| > 0 && r.failure.None? && DistinctIds(fields) && DistinctTruthyIds(fds) {
      var d := fds[0];
      var tail := fds[1..];
      assert DistinctTruthyIds(tail) by {
        forall a, b | 0 <= a < b < |tail| && IsTruthyId(tail[a].id) && IsTruthyId(tail[b].id)
          ensures tail[a].id.value != tail[b].id.value
        {
          assert tail[a] == fds[a + 1] && tail[b] == fds[b + 1];
        }
      }
      if IsTruthyId(d.id) {
        match FindFirst(fields, (f: Field) => f.id == d.id.value && !f.deleted)
        case None =>
        case Some(k) =>
          var saved := SaveAt(slugify, fields, k, UpdateField(fields[k], d));
          var rest := UpdateFields(slugify, saved, tail);
          assert DistinctIds(saved) by {
            assert saved[k].id == fields[k].id;
          }
          UpdateFieldsWrites(slugify, saved, tail);
          UpdateFieldsPartition(slugify, saved, tail);
          UpdateStepWrites(fields, saved, rest.fields, rest.kept, fds, k);
      } else {
        UpdateFieldsWrites(slugify, fields, tail);
        forall j, i | 0 <= j < |fds| && IsTruthyId(fds[j].id) && 0 <= i < |fields| && fields[i].id == fds[j].id.value
          ensures !fields[i].deleted && UpdatedFrom(r.fields[i], fields[i], fds[j])
        {
          assert fds[j] == tail[j - 1];
        }
      }
    }
  }

  /** Rows that are live only where they were live before, with their slugs, keep live slugs unique. */
  lemma FewerLiveKeepsUnique(a: seq<Field>, b: seq<Field>)
    requires LiveSlugsUnique(a) && |b| == |a|
    requires forall i | 0 <= i < |a| && !b[i].deleted :: !a[i].deleted && b[i].slug == a[i].slug
    ensures LiveSlugsUnique(b)
  {
  }

  /** Agreeing keys are transitive. */
  lemma SameKeysTrans(a: seq<Field>, b: seq<Field>, c: seq<Field>)
    requires SameKeys(a, b) && SameKeys(b, c)
    ensures SameKeys(a, c)
  {
  }

  /** Whether `delete_fields` flags the row: a live field of the model whose id was not kept. */
  predicate Unkept(f: Field, riskModel: nat, kept: seq<int>) {
    f.riskModel == riskModel && !f.deleted && f.id !in kept
  }

  /** `delete_fields` from position `i` on: each unkept row in turn is flagged deleted and saved,
      which gives a row without a slug one generated against the live slugs at that moment. Nothing
      is removed, and nothing else changes. */
  function SoftDeleteFrom(slugify: string -> string, fields: seq<Field>, riskModel: nat, kept: seq<int>, i: nat): (r: seq<Field>)
    requires i <= |fields|
    ensures SameKeys(fields, r)
    ensures forall j | 0 <= j < i :: r[j] == fields[j]
    ensures forall j | i <= j < |fields| :: r[j].deleted <==> fields[j].deleted || Unkept(fields[j], riskModel, kept)
    ensures forall j | 0 <= j < |fields| :: r[j].(deleted := fields[j].deleted, slug := fields[j].slug) == fields[j]
    ensures forall j | 0 <= j < |fields| && !(i <= j && Unkept(fields[j], riskModel, kept)) :: r[j] == fields[j]
    ensures forall j | i <= j < |fields| && Unkept(fields[j], riskModel, kept) :: r[j].slug != ""
    decreases |fields| - i
  {
    if i == |fields| then fields
    else if Unkept(fields[i], riskModel, kept) then
      var saved := SaveAt(slugify, fields, i, fields[i].(deleted := true));
      var r := SoftDeleteFrom(slugify, saved, riskModel, kept, i + 1);
      SameKeysTrans(fields, saved, r);
      r
    else
      SoftDeleteFrom(slugify, fields, riskModel, kept, i + 1)
  }

  /** `delete_fields`: every live field of the model whose id was not kept is flagged deleted and
      saved, in table order. */
  function SoftDeleteUnkept(slugify: string -> string, fields: seq<Field>, riskModel: nat, kept: seq<int>): (r: seq<Field>)
    ensures SameKeys(fields, r)
    ensures forall i | 0 <= i < |fields| ::
      r[i].deleted <==> fields[i].deleted || (fields[i].riskModel == riskModel && fields[i].id !in kept)
    ensures forall i | 0 <= i < |fields| :: r[i].(deleted := fields[i].deleted, slug := fields[i].slug) == fields[i]
    ensures forall i | 0 <= i < |fields| && !r[i].deleted :: r[i] == fields[i]
    ensures forall i | 0 <= i < |fields| && r[i].deleted && !fields[i].deleted :: r[i].slug != ""
    ensures LiveSlugsUnique(fields) ==> LiveSlugsUnique(r)
  {
    var r := SoftDeleteFrom(slugify, fields, riskModel, kept, 0);
    assert forall i | 0 <= i < |fields| && !r[i].deleted :: !Unkept(fields[i], riskModel, kept);
    r
  }

  /** `f` is the row created from entry `d` with the given id under the given model. */
  predicate CreatedFrom(f: Field, id: nat, riskModel: nat, d: FieldData) {
    && f.id == id && f.riskModel == riskModel && !f.deleted
    && f.name == d.name && f.fieldType == d.fieldType && f.order == d.order
    && f.required == d.required.GetOr(true) && f.unique == d.unique.GetOr(false)
    && NullableFrom(f, d)
  }

  /** `after` is `before` followed by one new row per entry, with consecutive fresh ids. */
  predicate Appended(before: seq<Field>, after: seq<Field>, riskModel: nat, entries: seq<FieldData>) {
    && |after| == |before| + |entries|
    && after[..|before|] == before
    && forall j | 0 <= j < |entries| :: CreatedFrom(after[|before| + j], |before| + j + 1, riskModel, entries[j])
  }

  /** Appending a row whose slug no live row carries keeps live slugs unique. */
  lemma AppendFreshSlug(fields: seq<Field>, row: Field)
    requires LiveSlugsUnique(fields) && row.slug !in LiveSlugs(fields)
    ensures LiveSlugsUnique(fields + [row])
  {
    var grown := fields + [row];
    forall i, j | 0 <= i < j < |grown| && !grown[i].deleted && !grown[j].deleted
      ensures grown[i].slug != grown[j].slug
    {
      if j == |fields| {
        assert grown[i] == fields[i];
      } else {
        assert grown[i] == fields[i] && grown[j] == fields[j];
      }
    }
  }

  /** `create_fields`: the entries become new rows of the model, one after another, each with the
      next id and a slug unique among the live slugs at that moment. */
  function CreateFields(slugify: string -> string, fields: seq<Field>, riskModel: nat, creates: seq<FieldData>): (r: seq<Field>)
    ensures Appended(fields, r, riskModel, creates)
    ensures LiveSlugsUnique(fields) ==> LiveSlugsUnique(r)
    decreases |creates|
  {
    if |creates| == 0 then fields
    else
      var row := CreatedField(slugify, |fields| + 1, riskModel, creates[0], LiveSlugs(fields));
      var grown := fields + [row];
      assert LiveSlugsUnique(fields) ==> LiveSlugsUnique(grown) by {
        if LiveSlugsUnique(fields) {
          AppendFreshSlug(fields, row);
        }
      }
      var r := CreateFields(slugify, grown, riskModel, creates[1..]);
      AppendedStep(fields, row, r, riskModel, creates);
      r
  }

  /** One created row followed by the rows of the remaining entries is the rows of all entries. */
  lemma AppendedStep(fields: seq<Field>, row: Field, r: seq<Field>, riskModel: nat, creates: seq<FieldData>)
    requires |creates| > 0 && CreatedFrom(row, |fields| + 1, riskModel, creates[0])
    requires Appended(fields + [row], r, riskModel, creates[1..])
    ensures Appended(fields, r, riskModel, creates)
  {
    var grown := fields + [row];
    assert r[..|fields|] == grown[..|fields|] == fields;
    forall j | 0 <= j < |creates|
      ensures CreatedFrom(r[|fields| + j], |fields| + j + 1, riskModel, creates[j])
    {
      if j == 0 {
        assert r[|fields|] == grown[|fields|] == row;
      } else {
        assert r[|fields| + j] == r[|grown| + (j - 1)];
        assert creates[1..][j - 1] == creates[j];
      }
    }
  }

  /** Rows of a payload without any client-supplied id. */
  function WithoutIds(fds: seq<FieldData>): (r: seq<FieldData>)
    ensures |r| == |fds| && forall i | 0 <= i < |fds| :: r[i] == fds[i].(id := None)
  {
    seq(|fds|, i requires 0 <= i < |fds| => fds[i].(id := None))
  }

  /** Dropping the ids changes nothing a created row takes from its entry. */
  lemma AppendedWithoutIds(before: seq<Field>, after: seq<Field>, riskModel: nat, fds: seq<FieldData>)
    requires Appended(before, after, riskModel, WithoutIds(fds))
    ensures Appended(before, after, riskModel, fds)
  {
    forall j | 0 <= j < |fds|
      ensures CreatedFrom(after[|before| + j], |before| + j + 1, riskModel, fds[j])
    {
      assert WithoutIds(fds)[j] == fds[j].(id := None);
    }
  }

  /** The row of a created risk model: the nullable text keys hold what was given (a missing key is
      null), and `activated` defaults to true. */
  predicate CreatedModel(m: RiskModel, id: nat, data: ModelData) {
    && m.id == id && m.name == data.name && m.button == data.button
    && m.description == (if data.description.Given? then Some(data.description.value) else None)
    && m.successMsg == (if data.successMsg.Given? then Some(data.successMsg.value) else None)
    && m.activated == data.activated.GetOr(true)
  }

  /** `RiskModelSerializer.create`: a payload failing validation writes nothing; otherwise the
      model row, then one new field per entry; the entries' client-supplied ids are dropped, so
      every created row gets a fresh id. */
  function CreateRiskModel(slugify: string -> string, st: Store, data: ModelData): (r: Outcome)
    ensures ValidateModelData(st.models, None, data).Err? ==>
      r == Outcome(st, Err(ValidateModelData(st.models, None, data).error))
    ensures r.result.Ok? <==> ValidateModelData(st.models, None, data).Ok?
    ensures r.result.Ok? ==>
      && r.result.value == |st.models| + 1
      && |r.store.models| == |st.models| + 1 && r.store.models[..|st.models|] == st.models
      && CreatedModel(r.store.models[|st.models|], |st.models| + 1, data)
      && Appended(st.fields, r.store.fields, |st.models| + 1, data.fields)
      && r.store.submissions == st.submissions && r.store.values == st.values
    ensures ModelNamesUnique(st.models) ==> ModelNamesUnique(r.store.models)
    ensures LiveSlugsUnique(st.fields) ==> LiveSlugsUnique(r.store.fields)
  {
    match ValidateModelData(st.models, None, data)
    case Err(e) => Outcome(st, Err(e))
    case Ok(_) =>
      var id := |st.models| + 1;
      var model := RiskModel(id, data.name, data.button, Write(data.description, None), Write(data.successMsg, None),
                             data.activated.GetOr(true));
      var fields := CreateFields(slugify, st.fields, id, WithoutIds(data.fields));
      AppendedWithoutIds(st.fields, fields, id, data.fields);
      var models := st.models + [model];
      assert ModelNamesUnique(st.models) ==> ModelNamesUnique(models) by {
        if ModelNamesUnique(st.models) {
          AppendKeepsNamesUnique(st.models, model);
        }
      }
      assert models[..|st.models|] == st.models;
      Outcome(st.(models := models, fields := fields), Ok(id))
  }

  /** The field table after `update_fields`, `delete_fields` and `create_fields`, or the 404 that
      stopped `update_fields` together with the updates already saved. */
  datatype FieldsOutcome = FieldsOutcome(fields: seq<Field>, failure: Option<Error>)

  /** The field reconciliation of an update, on a validated payload. */
  function ReconcileFields(slugify: string -> string, fields: seq<Field>, riskModel: nat, fds: seq<FieldData>): (r: FieldsOutcome)
    ensures |r.fields| >= |fields| && SameKeys(fields, r.fields[..|fields|])
    ensures LiveSlugsUnique(fields) ==> LiveSlugsUnique(r.fields)
    ensures r.failure.Some? ==> r.failure.value == NotFound && |r.fields| == |fields|
    ensures r.failure.Some? ==> forall i | 0 <= i < |fields| :: r.fields[i].deleted == fields[i].deleted
    ensures r.failure.None? ==> forall i | 0 <= i < |fields| ::
      r.fields[i].deleted <==>
        fields[i].deleted || (fields[i].riskModel == riskModel && fields[i].id !in TruthyIds(fds))
    ensures r.failure.None? ==> Appended(r.fields[..|fields|], r.fields, riskModel, NewEntries(fds))
  {
    var pass := UpdateFields(slugify, fields, fds);
    UpdateFieldsPartition(slugify, fields, fds);
    assert LiveSlugsUnique(fields) ==> LiveSlugsUnique(pass.fields) by {
      if LiveSlugsUnique(fields) {
        UpdateFieldsKeepsUnique(slugify, fields, fds);
      }
    }
    assert pass.fields[..|fields|] == pass.fields;
    if pass.failure.Some? then FieldsOutcome(pass.fields, pass.failure)
    else
      var marked := SoftDeleteUnkept(slugify, pass.fields, riskModel, pass.kept);
      SameKeysTrans(fields, pass.fields, marked);
      var created := CreateFields(slugify, marked, riskModel, pass.creates);
      assert created[..|fields|] == marked;
      FieldsOutcome(created, None)
  }

  /** A reconciliation without a missing id leaves every re-posted field live, holding its entry's
      values: the soft-delete pass spares kept rows and creation only appends. */
  lemma ReconcileFieldsWrites(slugify: string -> string, fields: seq<Field>, riskModel: nat, fds: seq<FieldData>)
    ensures var r := ReconcileFields(slugify, fields, riskModel, fds);
      r.failure.None? && DistinctIds(fields) && DistinctTruthyIds(fds) ==>
        forall j, i | 0 <= j < |fds| && IsTruthyId(fds[j].id) && 0 <= i < |fields| && fields[i].id == fds[j].id.value ::
          !r.fields[i].deleted && UpdatedFrom(r.fields[i], fields[i], fds[j])
  {
    var r := ReconcileFields(slugify, fields, riskModel, fds);
    var pass := UpdateFields(slugify, fields, fds);
    if r.failure.None? && DistinctIds(fields) && DistinctTruthyIds(fds) {
      UpdateFieldsPartition(slugify, fields, fds);
      UpdateFieldsWrites(slugify, fields, fds);
      var marked := SoftDeleteUnkept(slugify, pass.fields, riskModel, pass.kept);
      assert r.fields[..|fields|] == marked;
      forall j, i | 0 <= j < |fds| && IsTruthyId(fds[j].id) && 0 <= i < |fields| && fields[i].id == fds[j].id.value
        ensures !r.fields[i].deleted && UpdatedFrom(r.fields[i], fields[i], fds[j])
      {
        assert fds[j] in fds;
        assert pass.fields[i].id in pass.kept;
        assert marked[i] == pass.fields[i];
        assert r.fields[i] == r.fields[..|fields|][i];
      }
    }
  }

  /** The row of an updated risk model: `name` and `button` are written, and each of the other
      attributes only when its key is in the payload. */
  predicate Rewritten(before: RiskModel, after: RiskModel, data: ModelData) {
    && after.id == before.id && after.name == data.name && after.button == data.button
    && after.description == (if data.description.IsPresent() then data.description.ToOption() else before.description)
    && after.successMsg == (if data.successMsg.IsPresent() then data.successMsg.ToOption() else before.successMsg)
    && after.activated == data.activated.GetOr(before.activated)
  }

  /** `RiskModelSerializer.update`: a missing model is a 404 and an invalid payload is rejected,
      both before any write; otherwise the model's attributes are saved and its fields reconciled.
      Submissions and stored values are never touched, so historical data survives. */
  function UpdateRiskModel(slugify: string -> string, st: Store, id: nat, data: ModelData): (r: Outcome)
    ensures r.store.submissions == st.submissions && r.store.values == st.values
    ensures |r.store.fields| >= |st.fields| && SameKeys(st.fields, r.store.fields[..|st.fields|])
    ensures LiveSlugsUnique(st.fields) ==> LiveSlugsUnique(r.store.fields)
    ensures FindModel(st, id).None? ==> r == Outcome(st, Err(NotFound))
    ensures FindModel(st, id).Some? && ValidateModelData(st.models, Some(id), data).Err? ==>
      r == Outcome(st, Err(ValidateModelData(st.models, Some(id), data).error))
    ensures r.result.Ok? ==> r.result.value == id && FindModel(st, id).Some? && ValidateModelData(st.models, Some(id), data).Ok?
    ensures |r.store.models| == |st.models|
    ensures r.store != st ==> exists k | 0 <= k < |st.models| ::
      && st.models[k].id == id
      && r.store.models == st.models[k := r.store.models[k]]
      && Rewritten(st.models[k], r.store.models[k], data)
    ensures SequentialModelIds(st.models) && ModelNamesUnique(st.models) ==> ModelNamesUnique(r.store.models)
    ensures r.result.Ok? ==> forall i | 0 <= i < |st.fields| ::
      r.store.fields[i].deleted <==>
        st.fields[i].deleted || (st.fields[i].riskModel == id && st.fields[i].id !in TruthyIds(data.fields))
    ensures r.result.Ok? ==> Appended(r.store.fields[..|st.fields|], r.store.fields, id, NewEntries(data.fields))
  {
    match FindFirst(st.models, (m: RiskModel) => m.id == id)
    case None => Outcome(st, Err(NotFound))
    case Some(k) =>
      match ValidateModelData(st.models, Some(id), data)
      case Err(e) => Outcome(st, Err(e))
      case Ok(_) =>
        var m := st.models[k];
        var model := m.(name := data.name, button := data.button, description := Write(data.description, m.description),
                        successMsg := Write(data.successMsg, m.successMsg), activated := data.activated.GetOr(m.activated));
        var models := st.models[k := model];
        assert SequentialModelIds(st.models) && ModelNamesUnique(st.models) ==> ModelNamesUnique(models) by {
          if SequentialModelIds(st.models) && ModelNamesUnique(st.models) {
            RenameKeepsNamesUnique(st.models, k, model);
          }
        }
        assert Rewritten(m, model, data) && models == st.models[k := models[k]];
        var out := ReconcileFields(slugify, st.fields, id, data.fields);
        var next := st.(models := models, fields := out.fields);
        if out.failure.Some? then Outcome(next, Err(out.failure.value)) else Outcome(next, Ok(id))
  }

  /** An accepted update of a risk model leaves every re-posted field live, holding its entry's values. */
  lemma UpdateRiskModelWrites(slugify: string -> string, st: Store, id: nat, data: ModelData)
    ensures var r := UpdateRiskModel(slugify, st, id, data);
      r.result.Ok? && DistinctIds(st.fields) && DistinctTruthyIds(data.fields) ==>
        forall j, i | 0 <= j < |data.fields| && IsTruthyId(data.fields[j].id) && 0 <= i < |st.fields| && st.fields[i].id == data.fields[j].id.value ::
          !r.store.fields[i].deleted && UpdatedFrom(r.store.fields[i], st.fields[i], data.fields[j])
  {
    match FindFirst(st.models, (m: RiskModel) => m.id == id)
    case None =>
    case Some(k) =>
      match ValidateModelData(st.models, Some(id), data)
      case Err(_) =>
      case Ok(_) =>
        ReconcileFieldsWrites(slugify, st.fields, id, data.fields);
  }

  predicate SortedByOrder(fs: seq<Field>) {
    forall i, j | 0 <= i < j < |fs| :: fs[i].order <= fs[j].order
  }

  /** The tail of a sorted list is sorted. */
  lemma SortedTail(fs: seq<Field>)
    requires |fs| > 0 && SortedByOrder(fs)
    ensures SortedByOrder(fs[1..])
    ensures forall x | x in fs[1..] :: fs[0].order <= x.order
  {
    var rest := fs[1..];
    forall i, j | 0 <= i < j < |rest|
      ensures rest[i].order <= rest[j].order
    {
      assert rest[i] == fs[i + 1] && rest[j] == fs[j + 1];
    }
  }

  /** A field no later than everything in a sorted list can go in front of it. */
  lemma SortedCons(f: Field, fs: seq<Field>)
    requires SortedByOrder(fs) && forall x | x in fs :: f.order <= x.order
    ensures SortedByOrder([f] + fs)
  {
    var r := [f] + fs;
    forall i, j | 0 <= i < j < |r|
      ensures r[i].order <= r[j].order
    {
      assert r[j] == fs[j - 1] && fs[j - 1] in fs;
      if i > 0 {
        assert r[i] == fs[i - 1];
      }
    }
  }

  /** Places `f` before the first element whose order is not smaller, which keeps equal orders in
      their original sequence. */
  function InsertByOrder(f: Field, sorted: seq<Field>): (r: seq<Field>)
    requires SortedByOrder(sorted)
    ensures SortedByOrder(r)
    ensures multiset(r) == multiset(sorted) + multiset{f}
  {
    if |sorted| == 0 then [f]
    else if f.order <= sorted[0].order then
      SortedCons(f, sorted);
      [f] + sorted
    else
      SortedTail(sorted);
      var rest := InsertByOrder(f, sorted[1..]);
      assert sorted == [sorted[0]] + sorted[1..];
      assert forall x | x in rest :: sorted[0].order <= x.order by {
        forall x | x in rest
          ensures sorted[0].order <= x.order
        {
          assert x in multiset(rest);
          if x != f {
            assert x in multiset(sorted[1..]);
            assert x in sorted[1..];
          }
        }
      }
      SortedCons(sorted[0], rest);
      [sorted[0]] + rest
  }

  /** A sort by ascending `order`, standing for Python's `sorted(..., key=order)`. */
  function SortByOrder(fs: seq<Field>): (r: seq<Field>)
    ensures SortedByOrder(r)
    ensures multiset(r) == multiset(fs)
  {
    if |fs| == 0 then []
    else
      assert fs == [fs[0]] + fs[1..];
      InsertByOrder(fs[0], SortByOrder(fs[1..]))
  }

  /** `to_representation`: the model's live fields, listed in ascending order of `order`. */
  function Representation(st: Store, id: nat): (r: seq<Field>)
    ensures SortedByOrder(r)
    ensures multiset(r) == multiset(ActiveFields(st.fields, id))
    ensures forall f :: f in r <==> f in st.fields && f.riskModel == id && !f.deleted
  {
    var r := SortByOrder(ActiveFields(st.fields, id));
    assert forall f :: f in r <==> f in multiset(r);
    r
  }
}

=== FILE: registry.dfy ===
/** The field-type registry (`FIELD_TYPES`) and its `{text, value}` presentation. */
module Registry {
  import opened Results

  /** The supported (tag, label) pairs, in declaration order. */
  const FieldTypes: seq<(string, string)> := [
    ("array", "ARRAY"),
    ("checkbox", "CHECKBOX/BOOL"),
    ("date", "DATE"),
    ("email", "EMAIL"),
    ("file", "FILE"),
    ("float", "FLOAT"),
    ("multiselect", "MULTI SELECT/GROUP CHECKBOX"),
    ("number", "NUMBER"),
    ("password", "PASSWORD"),
    ("radio", "RADIO"),
    ("regex", "REGEX"),
    ("select", "SELECT"),
    ("switch", "SWITCH"),
    ("text", "TEXT"),
    ("textarea", "TEXT AREA"),
    ("time", "TIME"),
    ("url", "URL")
  ]

  /** The registered types, one constructor per tag. */
  datatype FieldType =
    | Array | Checkbox | Date | Email | File | Float | MultiSelect | Number | Password
    | Radio | Regex | Select | Switch | Text | TextArea | Time | Url

  /** The registered type a tag names, or `None` for a tag outside the registry. */
  function ParseTag(tag: string): Option<FieldType> {
    match tag
    case "array" => Some(Array)
    case "checkbox" => Some(Checkbox)
    case "date" => Some(Date)
    case "email" => Some(Email)
    case "file" => Some(File)
    case "float" => Some(Float)
    case "multiselect" => Some(MultiSelect)
    case "number" => Some(Number)
    case "password" => Some(Password)
    case "radio" => Some(Radio)
    case "regex" => Some(Regex)
    case "select" => Some(Select)
    case "switch" => Some(Switch)
    case "text" => Some(Text)
    case "textarea" => Some(TextArea)
    case "time" => Some(Time)
    case "url" => Some(Url)
    case _ => None
  }

  /** Every pair's tag is accepted by the dispatch. */
  lemma ListedParses(i: int)
    requires 0 <= i < |FieldTypes|
    ensures ParseTag(FieldTypes[i].0).Some?
  {
    if i == 0 { assert FieldTypes[i].0 == "array"; }
    else if i == 1 { assert FieldTypes[i].0 == "checkbox"; }
    else if i == 2 { assert FieldTypes[i].0 == "date"; }
    else if i == 3 { assert FieldTypes[i].0 == "email"; }
    else if i == 4 { assert FieldTypes[i].0 == "file"; }
    else if i == 5 { assert FieldTypes[i].0 == "float"; }
    else if i == 6 { assert FieldTypes[i].0 == "multiselect"; }
    else if i == 7 { assert FieldTypes[i].0 == "number"; }
    else if i == 8 { assert FieldTypes[i].0 == "password"; }
    else if i == 9 { assert FieldTypes[i].0 == "radio"; }
    else if i == 10 { assert FieldTypes[i].0 == "regex"; }
    else if i == 11 { assert FieldTypes[i].0 == "select"; }
    else if i == 12 { assert FieldTypes[i].0 == "switch"; }
    else if i == 13 { assert FieldTypes[i].0 == "text"; }
    else if i == 14 { assert FieldTypes[i].0 == "textarea"; }
    else if i == 15 { assert FieldTypes[i].0 == "time"; }
    else { assert FieldTypes[i].0 == "url"; }
  }

  /** Every tag the dispatch accepts is carried by some pair. */
  lemma ParsedIsListed(tag: string)
    requires ParseTag(tag).Some?
    ensures exists i | 0 <= i < |FieldTypes| :: FieldTypes[i].0 == tag
  {
    match ParseTag(tag).value
    case Array => assert FieldTypes[0].0 == tag;
    case Checkbox => assert FieldTypes[1].0 == tag;
    case Date => assert FieldTypes[2].0 == tag;
    case Email => assert FieldTypes[3].0 == tag;
    case File => assert FieldTypes[4].0 == tag;
    case Float => assert FieldTypes[5].0 == tag;
    case MultiSelect => assert FieldTypes[6].0 == tag;
    case Number => assert FieldTypes[7].0 == tag;
    case Password => assert FieldTypes[8].0 == tag;
    case Radio => assert FieldTypes[9].0 == tag;
    case Regex => assert FieldTypes[10].0 == tag;
    case Select => assert FieldTypes[11].0 == tag;
    case Switch => assert FieldTypes[12].0 == tag;
    case Text => assert FieldTypes[13].0 == tag;
    case TextArea => assert FieldTypes[14].0 == tag;
    case Time => assert FieldTypes[15].0 == tag;
    case Url => assert FieldTypes[16].0 == tag;
  }

  /** The dispatch agrees with the registry list: a tag parses iff some pair carries it. */
  lemma ParseTagMatchesRegistry(tag: string)
    ensures ParseTag(tag).Some? <==> exists i | 0 <= i < |FieldTypes| :: FieldTypes[i].0 == tag
  {
    if ParseTag(tag).Some? {
      ParsedIsListed(tag);
    }
    forall i | 0 <= i < |FieldTypes| && FieldTypes[i].0 == tag
      ensures ParseTag(tag).Some?
    {
      ListedParses(i);
    }
  }

  /** `tag` is a registered field type. */
  predicate IsFieldType(tag: string) {
    ParseTag(tag).Some?
  }

  /** One `{"text": label, "value": tag}` dictionary. */
  datatype Choice = Choice(text: string, value: string)

  /** `tuple_to_dict`: each pair `(value, text)` becomes `{text, value}`, in order. */
  function TupleToDict(data: seq<(string, string)>): (r: seq<Choice>)
    ensures |r| == |data|
    ensures forall i | 0 <= i < |data| :: r[i].text == data[i].1 && r[i].value == data[i].0
  {
    if |data| == 0 then [] else [Choice(data[0].1, data[0].0)] + TupleToDict(data[1..])
  }

  /** The inverse reading: the pairs a list of choices was built from. */
  function DictToTuple(choices: seq<Choice>): (r: seq<(string, string)>)
    ensures |r| == |choices|
  {
    if |choices| == 0 then [] else [(choices[0].value, choices[0].text)] + DictToTuple(choices[1..])
  }

  /** `tuple_to_dict` loses nothing: the original pairs can be read back. */
  lemma {:induction false} TupleToDictRoundTrip(data: seq<(string, string)>)
    ensures DictToTuple(TupleToDict(data)) == data
  {
    if |data| > 0 {
      TupleToDictRoundTrip(data[1..]);
      assert TupleToDict(data)[1..] == TupleToDict(data[1..]);
    }
  }

  /** `FieldName.field_choices()`. */
  function FieldChoices(): (r: seq<Choice>)
    ensures |r| == 17
    ensures forall i | 0 <= i < 17 :: r[i] == Choice(FieldTypes[i].1, FieldTypes[i].0)
  {
    TupleToDict(FieldTypes)
  }

  /** The registry holds seventeen tags, starting with `array` and ending with `url`. */
  lemma RegistryShape()
    ensures |FieldTypes| == 17
    ensures FieldChoices()[0] == Choice("ARRAY", "array")
    ensures FieldChoices()[16] == Choice("URL", "url")
  {
  }

  /** A tag the dispatch rejects appears in no pair. */
  lemma Unlisted(tag: string)
    requires !IsFieldType(tag)
    ensures forall i | 0 <= i < |FieldTypes| :: FieldTypes[i].0 != tag
  {
    ParseTagMatchesRegistry(tag);
  }

  /** Tags outside the registry, such as those the tests use for legacy records, are not registered. */
  lemma UnregisteredTags()
    ensures !IsFieldType("pdf") && !IsFieldType("phone") && !IsFieldType("texter")
    ensures forall i | 0 <= i < |FieldTypes| :: FieldTypes[i].0 != "pdf" && FieldTypes[i].0 != "phone" && FieldTypes[i].0 != "texter"
  {
    Unlisted("pdf");
    Unlisted("phone");
    Unlisted("texter");
  }
}

=== FILE: results.dfy ===
/** Failure-compatible wrappers shared by every module of the form-schema engine. */
module Results {

  /** The conventional optional value (Python's `None` or a value). */
  datatype Option<+T> = None | Some(value: T) {
    function GetOr(default: T): T {
      match this
      case Some(v) => v
      case None => default
    }
  }

  /** A key of a validated payload: missing from the dict, present with `None`, or present with a value. */
  datatype Entry<+T> = Absent | Null | Given(value: T) {
    /** Python's `key in data`. */
    predicate IsPresent() {
      !Absent?
    }

    /** The value stored in a nullable model column once the key is written. */
    function ToOption(): Option<T>
      requires IsPresent()
    {
      if Given? then Some(value) else None
    }
  }

  /** A success value or an error; usable with `:-`. */
  datatype Result<+T, +E> = Ok(value: T) | Err(error: E) {
    predicate IsFailure() {
      Err?
    }

    function PropagateFailure<U>(): Result<U, E>
      requires Err?
    {
      Err(error)
    }

    function Extract(): T
      requires Ok?
    {
      value
    }
  }
}

/** The error shapes the engine reports to its callers. */
module Errors {

  /** A validation-error dictionary: key (attribute, field name, "fields", "data") to messages. */
  type Detail = map<string, seq<string>>

  datatype Error =
      /** A `ValidationError` carrying one dictionary (HTTP 400). */
    | Invalid(detail: Detail)
      /** A `ValidationError` whose `fields` entry lists the per-item errors of the field
          definitions, `{}` for the items that passed, next to the other keys' messages. */
    | ItemErrors(detail: Detail, items: seq<Detail>)
      /** `get_object_or_404` found nothing (HTTP 404). */
    | NotFound
      /** A Python exception the source does not catch (HTTP 500). */
    | Unhandled(exception: string)
}

=== FILE: schema.dfy ===
/** Validation of a risk model's field definitions: per field (`FieldSerializer`) and per list
    (`RiskModelSerializer.validate_fields`). */
module Schema {
  import opened Results
  import opened Errors
  import Registry
  import Decimal

  /** `settings.FIELD_MAX_LENGTH`, the bound on `min_length` and `max_length`. */
  const FieldMaxLength: nat := 1000

  /** The validated payload of one field definition. `slug` is read-only, so a client-supplied slug
      never reaches it; `id` is the optional integer the update path uses. */
  datatype FieldData = FieldData(
    id: Option<int>,
    name: string,
    fieldType: string,
    default: Entry<string>,
    regexPattern: Entry<string>,
    minLength: Entry<int>,
    maxLength: Entry<int>,
    choices: Entry<seq<string>>,
    required: Option<bool>,
    helpText: Entry<string>,
    order: nat,
    unique: Option<bool>)

  const MinOverMaxMessage := "Min Length can't be greater than Max Length."
  const ChoicesRequiredMessage := "Choices are required for this Field type."
  const RegexRequiredMessage := "Regex Pattern is required for the REGEX Field type."
  const NoFieldsMessage := "Risk Model has no fields. At least one field is required."
  const OrderMessage := "Riskmodel fields must have a sequential order."
  const NamesMessage := "Riskmodel fields must have unique names."

  /** Python truthiness of an optional integer: present, not `None` and not 0. */
  predicate Truthy(e: Entry<int>) {
    e.Given? && e.value != 0
  }

  predicate IsChoiceType(fieldType: string) {
    fieldType == "select" || fieldType == "multiselect"
  }

  /** The bounds are only compared when both are truthy: a 0 or missing bound disables the check. */
  predicate BoundsConsistent(d: FieldData) {
    Truthy(d.minLength) && Truthy(d.maxLength) ==> d.minLength.value <= d.maxLength.value
  }

  predicate ChoicesPresent(d: FieldData) {
    IsChoiceType(d.fieldType) ==> d.choices.Given? && d.choices.value != []
  }

  predicate PatternPresent(d: FieldData) {
    d.fieldType == "regex" ==> d.regexPattern.Given?
  }

  /** `FieldSerializer.validate`: bounds first, then choices, then the regex pattern. */
  function ValidateConstraints(d: FieldData): (r: Result<FieldData, Detail>)
    ensures r.Ok? <==> BoundsConsistent(d) && ChoicesPresent(d) && PatternPresent(d)
    ensures r.Ok? ==> r.value == d
    ensures r.Err? ==> "min_length" in r.error || "choices" in r.error || "regex_pattern" in r.error
    ensures !BoundsConsistent(d) ==> r == Err(map["min_length" := [MinOverMaxMessage]])
    ensures BoundsConsistent(d) && !ChoicesPresent(d) ==> r == Err(map["choices" := [ChoicesRequiredMessage]])
    ensures BoundsConsistent(d) && ChoicesPresent(d) && !PatternPresent(d) ==>
      r == Err(map["regex_pattern" := [RegexRequiredMessage]])
  {
    if d.minLength.IsPresent() && d.maxLength.IsPresent() && Truthy(d.minLength) && Truthy(d.maxLength)
       && d.minLength.value > d.maxLength.value
    then
      Err(map["min_length" := [MinOverMaxMessage]])
    else if IsChoiceType(d.fieldType)
      && (!d.choices.IsPresent() || d.choices.Null? || (d.choices.Given? && |d.choices.value| == 0))
    then
      Err(map["choices" := [ChoicesRequiredMessage]])
    else if d.fieldType == "regex" && (!d.regexPattern.IsPresent() || d.regexPattern.Null?) then
      Err(map["regex_pattern" := [RegexRequiredMessage]])
    else
      Ok(d)
  }

  /** The message of a `MinValueValidator(0)` / `MaxValueValidator(FIELD_MAX_LENGTH)` failure, if any. */
  function RangeMessages(e: Entry<int>): (r: seq<string>)
    ensures r == [] <==> !e.Given? || 0 <= e.value <= FieldMaxLength
  {
    if e.Given? && e.value < 0 then ["Ensure this value is greater than or equal to 0."]
    else if e.Given? && e.value > FieldMaxLength then
      ["Ensure this value is less than or equal to " + Decimal.Digits(FieldMaxLength) + "."]
    else []
  }

  /** The `max_length` of every `CharField` column of a field definition. */
  const MaxCharLength: nat := 255

  const BlankMessage := "This field may not be blank."

  /** The message of a `MaxLengthValidator(n)` failure. */
  function TooLongMessage(n: nat): string {
    "Ensure this field has no more than " + Decimal.Digits(n) + " characters."
  }

  /** The checks of a string serializer field built from a text column: a column without
      `blank=True` refuses the empty string (and then checks nothing else), and a column with a
      `max_length` refuses longer strings. */
  function TextMessages(s: string, allowBlank: bool, maxLength: Option<nat>): (r: seq<string>)
    ensures r == [] <==> (allowBlank || s != "") && (maxLength.Some? ==> |s| <= maxLength.value)
    ensures !allowBlank && s == "" ==> r == [BlankMessage]
    ensures (allowBlank || s != "") && maxLength.Some? && |s| > maxLength.value ==> r == [TooLongMessage(maxLength.value)]
  {
    if !allowBlank && s == "" then [BlankMessage]
    else if maxLength.Some? && |s| > maxLength.value then [TooLongMessage(maxLength.value)]
    else []
  }

  /** The checks of a nullable text key: only a given string is looked at. */
  function EntryMessages(e: Entry<string>, allowBlank: bool, maxLength: Option<nat>): (r: seq<string>)
    ensures r == [] <==> (e.Given? ==> TextMessages(e.value, allowBlank, maxLength) == [])
  {
    if e.Given? then TextMessages(e.value, allowBlank, maxLength) else []
  }

  /** A choice passes the checks of the array column's `CharField(max_length=255)` items. */
  predicate ChoiceTextOk(c: string) {
    TextMessages(c, false, Some(MaxCharLength)) == []
  }

  /** The messages of every item of a choices list, item after item. */
  function ItemMessages(items: seq<string>): (r: seq<string>)
    ensures r == [] <==> forall i | 0 <= i < |items| :: ChoiceTextOk(items[i])
  {
    if |items| == 0 then []
    else
      var rest := ItemMessages(items[1..]);
      assert forall i | 1 <= i < |items| :: items[i] == items[1..][i - 1];
      TextMessages(items[0], false, Some(MaxCharLength)) + rest
  }

  function ChoiceMessages(e: Entry<seq<string>>): (r: seq<string>)
    ensures r == [] <==> (e.Given? ==> forall i | 0 <= i < |e.value| :: ChoiceTextOk(e.value[i]))
  {
    if e.Given? then ItemMessages(e.value) else []
  }

  /** The message of a `field_type` outside the registered choices. */
  function TypeMessages(fieldType: string): (r: seq<string>)
    ensures r == [] <==> Registry.IsFieldType(fieldType)
  {
    if Registry.IsFieldType(fieldType) then [] else ["\"" + fieldType + "\" is not a valid choice."]
  }

  /** The upper end of a PostgreSQL `integer` column, which a positive-integer column's serializer
      field takes as its `max_value`. */
  const MaxColumnInt: nat := 2147483647

  /** The messages of the `order` column: only the upper end of its range can fail here. */
  function OrderMessages(order: nat): (r: seq<string>)
    ensures r == [] <==> order <= MaxColumnInt
  {
    if order > MaxColumnInt then ["Ensure this value is less than or equal to " + Decimal.Digits(MaxColumnInt) + "."] else []
  }

  /** The keys of the columns a field definition is checked against. */
  const ColumnKeys: set<string> :=
    {"name", "field_type", "default", "regex_pattern", "min_length", "max_length", "choices", "help_text", "order"}

  /** The messages of the checks of one column. */
  function ColumnMessages(d: FieldData, key: string): seq<string> {
    if key == "name" then TextMessages(d.name, false, Some(MaxCharLength))
    else if key == "field_type" then TypeMessages(d.fieldType)
    else if key == "default" then EntryMessages(d.default, true, Some(MaxCharLength))
    else if key == "regex_pattern" then EntryMessages(d.regexPattern, true, Some(MaxCharLength))
    else if key == "min_length" then RangeMessages(d.minLength)
    else if key == "max_length" then RangeMessages(d.maxLength)
    else if key == "choices" then ChoiceMessages(d.choices)
    else if key == "help_text" then EntryMessages(d.helpText, false, None)
    else if key == "order" then OrderMessages(d.order)
    else []
  }

  /** What each column's check refuses. */
  lemma ColumnMessagesMeaning(d: FieldData)
    ensures ColumnMessages(d, "name") == [] <==> d.name != "" && |d.name| <= MaxCharLength
    ensures ColumnMessages(d, "field_type") == [] <==> Registry.IsFieldType(d.fieldType)
    ensures ColumnMessages(d, "default") == [] <==> (d.default.Given? ==> |d.default.value| <= MaxCharLength)
    ensures ColumnMessages(d, "regex_pattern") == [] <==> (d.regexPattern.Given? ==> |d.regexPattern.value| <= MaxCharLength)
    ensures ColumnMessages(d, "min_length") == RangeMessages(d.minLength)
    ensures ColumnMessages(d, "max_length") == RangeMessages(d.maxLength)
    ensures ColumnMessages(d, "choices") == [] <==>
      (d.choices.Given? ==> forall i | 0 <= i < |d.choices.value| :: ChoiceTextOk(d.choices.value[i]))
    ensures ColumnMessages(d, "help_text") == [] <==> d.helpText != Given("")
    ensures ColumnMessages(d, "order") == [] <==> d.order <= MaxColumnInt
  {
  }

  /** Every column of a field definition accepts its value: a non-blank name of at most 255
      characters, a registered type, `default` and `regex_pattern` of at most 255 characters, bounds
      in `0..FIELD_MAX_LENGTH`, non-blank choices of at most 255 characters, a non-blank help text. */
  predicate AttributesValid(d: FieldData) {
    && d.name != "" && |d.name| <= MaxCharLength
    && Registry.IsFieldType(d.fieldType)
    && (d.default.Given? ==> |d.default.value| <= MaxCharLength)
    && (d.regexPattern.Given? ==> |d.regexPattern.value| <= MaxCharLength)
    && (d.minLength.Given? ==> 0 <= d.minLength.value <= FieldMaxLength)
    && (d.maxLength.Given? ==> 0 <= d.maxLength.value <= FieldMaxLength)
    && (d.choices.Given? ==> forall i | 0 <= i < |d.choices.value| :: ChoiceTextOk(d.choices.value[i]))
    && (d.helpText.Given? ==> d.helpText.value != "")
    && d.order <= MaxColumnInt
  }

  /** A definition is column-valid exactly when no column of `ColumnKeys` reports a message. */
  lemma ValidIffNoColumnMessages(d: FieldData)
    ensures AttributesValid(d) <==> forall key | key in ColumnKeys :: ColumnMessages(d, key) == []
  {
    ColumnMessagesMeaning(d);
  }

  /** The field-level checks the model columns impose before `validate` runs; every failing
      column reports under its own key. */
  function CheckAttributes(d: FieldData): (r: Detail)
    ensures r == map[] <==> AttributesValid(d)
    ensures forall key :: key in r <==> key in ColumnKeys && ColumnMessages(d, key) != []
    ensures forall key | key in r :: r[key] == ColumnMessages(d, key)
  {
    var r := map key | key in ColumnKeys && ColumnMessages(d, key) != [] :: ColumnMessages(d, key);
    ValidIffNoColumnMessages(d);
    assert r.Keys <= ColumnKeys;
    assert r == map[] <==> forall key | key in ColumnKeys :: key !in r;
    r
  }

  /** Full validation of one field definition: the column checks, then `validate`. */
  function ValidateFieldData(d: FieldData): (r: Result<FieldData, Detail>)
    ensures r.Ok? <==> AttributesValid(d) && ValidateConstraints(d).Ok?
    ensures r.Ok? ==> r.value == d
    ensures !AttributesValid(d) ==> r == Err(CheckAttributes(d))
    ensures r.Err? ==> r.error != map[]
  {
    var attributeErrors := CheckAttributes(d);
    if attributeErrors != map[] then Err(attributeErrors) else ValidateConstraints(d)
  }

  /** The set of elements of `s`, built one element at a time. */
  function ElementSet(s: seq<string>): (r: set<string>)
    ensures forall x :: x in r <==> x in s
  {
    if |s| == 0 then {} else {s[0]} + ElementSet(s[1..])
  }

  predicate Distinct(s: seq<string>) {
    forall i, j | 0 <= i < j < |s| :: s[i] != s[j]
  }

  /** `len(names) != len(set(names))` detects exactly the lists with a repeated name. */
  lemma {:induction false} SetSizeDetectsDuplicates(s: seq<string>)
    ensures |ElementSet(s)| <= |s|
    ensures |ElementSet(s)| == |s| <==> Distinct(s)
  {
    if |s| > 0 {
      SetSizeDetectsDuplicates(s[1..]);
      if s[0] in s[1..] {
        assert {s[0]} + ElementSet(s[1..]) == ElementSet(s[1..]);
        var k :| 0 <= k < |s[1..]| && s[1..][k] == s[0];
        assert s[0] == s[k + 1];
      } else {
        assert |{s[0]} + ElementSet(s[1..])| == 1 + |ElementSet(s[1..])|;
        if Distinct(s[1..]) {
          forall i, j | 0 <= i < j < |s|
            ensures s[i] != s[j]
          {
            if i > 0 {
              assert s[i] == s[1..][i - 1] && s[j] == s[1..][j - 1];
            } else {
              assert s[j] == s[1..][j - 1];
            }
          }
        } else {
          var i, j :| 0 <= i < j < |s[1..]| && s[1..][i] == s[1..][j];
          assert s[i + 1] == s[j + 1];
        }
      }
    }
  }

  function Orders(fs: seq<FieldData>): (r: seq<int>)
    ensures |r| == |fs| && forall i | 0 <= i < |fs| :: r[i] == fs[i].order
  {
    seq(|fs|, i requires 0 <= i < |fs| => fs[i].order)
  }

  function Names(fs: seq<FieldData>): (r: seq<string>)
    ensures |r| == |fs| && forall i | 0 <= i < |fs| :: r[i] == fs[i].name
  {
    seq(|fs|, i requires 0 <= i < |fs| => fs[i].name)
  }

  /** What the order check actually tests: the first order is 1 and the last is N.
      Intermediate orders are not looked at. */
  predicate OrderEndpoints(fs: seq<FieldData>)
    requires |fs| > 0
  {
    fs[0].order == 1 && fs[|fs| - 1].order == |fs|
  }

  /** `RiskModelSerializer.validate_fields`: non-empty, then order, then case-sensitive unique names.
      Its errors are reported under the `fields` key. */
  function ValidateFields(fs: seq<FieldData>): (r: Result<seq<FieldData>, Detail>)
    ensures r.Ok? ==> r.value == fs
    ensures |fs| == 0 ==> r == Err(map["fields" := [NoFieldsMessage]])
    ensures |fs| > 0 ==> (r == Err(map["fields" := [OrderMessage]]) <==> !OrderEndpoints(fs))
    ensures |fs| > 0 && OrderEndpoints(fs) && !Distinct(Names(fs)) ==> r == Err(map["fields" := [NamesMessage]])
    ensures r.Ok? <==> |fs| > 0 && OrderEndpoints(fs) && Distinct(Names(fs))
  {
    if |fs| == 0 then Err(map["fields" := [NoFieldsMessage]])
    else
      var orders := Orders(fs);
      if orders[0] != 1 || !(orders[|orders| - 1] - orders[0] == |orders| - 1) then
        Err(map["fields" := [OrderMessage]])
      else
        var names := Names(fs);
        SetSizeDetectsDuplicates(names);
        assert NamesMessage[27] != OrderMessage[27];
        assert map["fields" := [NamesMessage]]["fields"] != map["fields" := [OrderMessage]]["fields"];
        if |names| != |ElementSet(names)| then Err(map["fields" := [NamesMessage]]) else Ok(fs)
  }

  /** Every list-level rejection is reported under the `fields` key alone. */
  lemma ValidateFieldsKeys(fs: seq<FieldData>)
    ensures ValidateFields(fs).Err? ==> ValidateFields(fs).error.Keys == {"fields"}
  {
    var msg := if |fs| == 0 then NoFieldsMessage else if !OrderEndpoints(fs) then OrderMessage else NamesMessage;
    if ValidateFields(fs).Err? {
      assert ValidateFields(fs).error == map["fields" := [msg]];
    }
  }

  /** The error dictionary reported for one list item: `{}` when it passed. */
  function ItemDetail(d: FieldData): (r: Detail)
    ensures r == map[] <==> ValidateFieldData(d).Ok?
  {
    match ValidateFieldData(d)
    case Ok(_) => map[]
    case Err(e) => e
  }

  /** Validation of the `fields` list of a risk-model payload: every item is validated and all item
      errors are reported together; only when every item passed do the list checks run. */
  function ValidateSchema(fs: seq<FieldData>): (r: Result<seq<FieldData>, Error>)
    ensures r.Ok? <==> (forall i | 0 <= i < |fs| :: ValidateFieldData(fs[i]).Ok?) && ValidateFields(fs).Ok?
    ensures r.Ok? ==> r.value == fs
    ensures (exists i | 0 <= i < |fs| :: ValidateFieldData(fs[i]).Err?) ==>
      r.Err? && r.error.ItemErrors? && r.error.detail == map[] && |r.error.items| == |fs|
      && forall i | 0 <= i < |fs| :: (r.error.items[i] == map[] <==> ValidateFieldData(fs[i]).Ok?)
    ensures (forall i | 0 <= i < |fs| :: ValidateFieldData(fs[i]).Ok?) && ValidateFields(fs).Err? ==>
      r == Err(Invalid(ValidateFields(fs).error))
    ensures r.Err? ==> (r.error.ItemErrors? && r.error.detail == map[]) || (r.error.Invalid? && r.error.detail.Keys == {"fields"})
  {
    var items := seq(|fs|, i requires 0 <= i < |fs| => ItemDetail(fs[i]));
    ValidateFieldsKeys(fs);
    assert forall i | 0 <= i < |fs| :: items[i] == map[] <==> ValidateFieldData(fs[i]).Ok?;
    if !forall i | 0 <= i < |fs| :: ValidateFieldData(fs[i]).Ok? then Err(ItemErrors(map[], items))
    else
      match ValidateFields(fs)
      case Ok(v) => Ok(v)
      case Err(e) => Err(Invalid(e))
  }

  function OrderOnly(orders: seq<nat>): (fs: seq<FieldData>)
    ensures |fs| == |orders| && forall i | 0 <= i < |fs| :: fs[i].order == orders[i]
  {
    seq(|orders|, i requires 0 <= i < |orders| =>
      FieldData(None, Decimal.Digits(i), "text", Absent, Absent, Absent, Absent, Absent, None, Absent, orders[i], None))
  }

  /** The order check accepts a repeated or skipped order as long as the endpoints are 1 and N,
      and rejects a permutation of 1..N whose first entry is not 1. */
  lemma OrderCheckExamples()
    ensures OrderEndpoints(OrderOnly([1, 3, 3]))
    ensures !OrderEndpoints(OrderOnly([2, 1]))
    ensures OrderEndpoints(OrderOnly([1, 2]))
  {
  }

  /** An order past the integer column's range is refused even though the list-level order check,
      which reads only the first and last orders, would pass it. */
  lemma OversizedOrderRejected(d: FieldData)
    requires d.order == MaxColumnInt + 1
    ensures ValidateFieldData(d).Err? && "order" in ValidateFieldData(d).error
  {
    ColumnMessagesMeaning(d);
    assert ColumnMessages(d, "order") != [];
  }

  /** A min/max pair with a zero bound passes even though min > max, because 0 is falsy. */
  lemma ZeroBoundSkipsComparison(d: FieldData)
    requires d.minLength == Given(5) && d.maxLength == Given(0)
    requires !IsChoiceType(d.fieldType) && d.fieldType != "regex"
    ensures ValidateConstraints(d).Ok?
  {
  }
}

=== FILE: slugs.dfy ===
/** Unique slug generation (`generate_unique_slug`) and slug assignment on save. */
module Slugs {
  import opened Decimal
  import opened Store

  /** The `max_length` of the `slug` column. */
  const MaxSlugLength: nat := 255

  /** The counter suffix `"-" + str(count)`. */
  function Suffix(count: nat): (r: string)
    ensures |r| == 1 + |Digits(count)| && r[0] == '-'
    ensures r[1..] == Digits(count)
  {
    "-" + Digits(count)
  }

  /** Python's `s[:n]`, where a negative `n` counts from the end. */
  function PyPrefix(s: string, n: int): (r: string)
    ensures |r| <= |s| && r == s[..|r|]
    ensures 0 <= n <= |s| ==> |r| == n
  {
    if n >= 0 then (if n <= |s| then s[..n] else s)
    else if |s| + n >= 0 then s[..|s| + n] else []
  }

  /** The value of `origin_slug` after `k` rounds of the loop: each round truncates it only when
      the suffixed result would exceed the column length, and the truncation is kept for later rounds. */
  function Origin(base: string, k: nat): string
    decreases k
  {
    if k == 0 then base
    else
      var o := Origin(base, k - 1);
      var suffix := Suffix(k);
      if |o| + |suffix| > MaxSlugLength then PyPrefix(o, MaxSlugLength - |suffix|) else o
  }

  /** The slug tried in round `k`: the (possibly truncated) origin followed by `-k`. */
  function Candidate(base: string, k: nat): string
    requires k >= 1
  {
    Origin(base, k) + Suffix(k)
  }

  /** The position of the last `-` in `x`, or -1. */
  function LastDash(x: string): (r: int)
    ensures -1 <= r < |x|
  {
    if |x| == 0 then -1
    else if x[|x| - 1] == '-' then |x| - 1
    else LastDash(x[..|x| - 1])
  }

  /** In `p + "-" + d` with `d` all digits, the last `-` is the one before `d`. */
  lemma {:induction false} LastDashBeforeDigits(p: string, d: string)
    requires forall i | 0 <= i < |d| :: IsDigit(d[i])
    ensures LastDash(p + ['-'] + d) == |p|
    decreases |d|
  {
    var x := p + ['-'] + d;
    if |d| > 0 {
      assert x[|x| - 1] == d[|d| - 1];
      assert x[..|x| - 1] == p + ['-'] + d[..|d| - 1];
      LastDashBeforeDigits(p, d[..|d| - 1]);
    }
  }

  /** Two strings ending in `-` followed by digits end in the same digits if they are equal. */
  lemma SameTrailingDigits(p1: string, d1: string, p2: string, d2: string)
    requires p1 + ['-'] + d1 == p2 + ['-'] + d2
    requires forall i | 0 <= i < |d1| :: IsDigit(d1[i])
    requires forall i | 0 <= i < |d2| :: IsDigit(d2[i])
    ensures d1 == d2
  {
    var x := p1 + ['-'] + d1;
    LastDashBeforeDigits(p1, d1);
    LastDashBeforeDigits(p2, d2);
    assert d1 == x[|p1| + 1..];
    assert d2 == (p2 + ['-'] + d2)[|p2| + 1..];
  }

  /** Different rounds never try the same slug. */
  lemma CandidateDistinct(base: string, i: nat, j: nat)
    requires i >= 1 && j >= 1
    requires Candidate(base, i) == Candidate(base, j)
    ensures i == j
  {
    assert Candidate(base, i) == Origin(base, i) + ['-'] + Digits(i);
    assert Candidate(base, j) == Origin(base, j) + ['-'] + Digits(j);
    SameTrailingDigits(Origin(base, i), Digits(i), Origin(base, j), Digits(j));
    DigitsInjective(i, j);
  }

  /** If rounds `1 .. k-1` all hit taken slugs, there are at least `k - 1` taken slugs. */
  lemma {:induction false} CandidatesBounded(base: string, taken: set<string>, k: nat)
    requires k >= 1
    requires forall j | 1 <= j < k :: Candidate(base, j) in taken
    ensures k - 1 <= |taken|
    decreases k
  {
    if k > 1 {
      var c := Candidate(base, k - 1);
      var rest := taken - {c};
      forall j | 1 <= j < k - 1
        ensures Candidate(base, j) in rest
      {
        if Candidate(base, j) == c {
          CandidateDistinct(base, j, k - 1);
        }
      }
      CandidatesBounded(base, rest, k - 1);
    }
  }

  /** The first round, at or after `k`, whose slug is free. */
  function FirstFree(base: string, taken: set<string>, k: nat): (r: nat)
    requires k >= 1
    requires forall j | 1 <= j < k :: Candidate(base, j) in taken
    ensures r >= k && Candidate(base, r) !in taken
    ensures forall j | 1 <= j < r :: Candidate(base, j) in taken
    ensures r <= |taken| + 1
    decreases |taken| + 1 - k
  {
    CandidatesBounded(base, taken, k);
    if Candidate(base, k) !in taken then k
    else FirstFree(base, taken, k + 1)
  }

  /** The slug `generate_unique_slug` settles on for the slugified text `base`, given the slugs
      already visible: `base` itself when free, else the first free suffixed candidate. */
  function UniqueSlug(base: string, taken: set<string>): (r: string)
    ensures r !in taken
    ensures base !in taken ==> r == base
    ensures base in taken ==>
      exists k | k >= 1 :: r == Candidate(base, k) && forall j | 1 <= j < k :: Candidate(base, j) in taken
  {
    if base !in taken then base else Candidate(base, FirstFree(base, taken, 1))
  }

  /** The loop of `generate_unique_slug`, with the live slugs of the store as `taken`. */
  method GenerateUniqueSlug(slugify: string -> string, text: string, taken: set<string>) returns (slug: string)
    ensures slug !in taken
    ensures slug == UniqueSlug(slugify(text), taken)
  {
    var originSlug := slugify(text);
    ghost var base := originSlug;
    slug := originSlug;
    var count: nat := 1;
    while slug in taken
      invariant count >= 1
      invariant originSlug == Origin(base, count - 1)
      invariant slug == if count == 1 then base else Candidate(base, count - 1)
      invariant count > 1 ==> base in taken
      invariant forall j | 1 <= j < count - 1 :: Candidate(base, j) in taken
      decreases |taken| + 2 - count
    {
      CandidatesBounded(base, taken, count);
      var suffix := "-" + Digits(count);
      if |originSlug| + |suffix| > MaxSlugLength {
        originSlug := PyPrefix(originSlug, MaxSlugLength - |suffix|);
      }
      slug := originSlug + suffix;
      count := count + 1;
    }
    if count > 1 {
      var k := FirstFree(base, taken, 1);
    }
  }

  /** A taken slug's suffixed replacement always fits the column when the counter's digits do. */
  lemma SuffixedWithinMax(base: string, k: nat)
    requires k >= 1 && |Suffix(k)| <= MaxSlugLength
    ensures |Candidate(base, k)| <= MaxSlugLength
  {
  }

  /** A base that fills the column (the 255-character name of the tests) yields suffixed slugs of
      exactly the column length: the base is cut only by as much as the suffix needs. */
  lemma {:induction false} FullLengthCandidate(base: string, k: nat)
    requires |base| >= MaxSlugLength - 1
    requires k >= 1 && |Suffix(k)| <= MaxSlugLength
    ensures |Candidate(base, k)| == MaxSlugLength
    decreases k
  {
    if k > 1 {
      DigitsLengthMonotone(k - 1, k);
      FullLengthCandidate(base, k - 1);
    }
  }

  /** The result is the base itself or fits the column, as long as the counter's digits fit. */
  lemma UniqueSlugLength(base: string, taken: set<string>)
    requires |Digits(|taken| + 1)| < MaxSlugLength
    ensures UniqueSlug(base, taken) == base || |UniqueSlug(base, taken)| <= MaxSlugLength
  {
    if base in taken {
      var k := FirstFree(base, taken, 1);
      DigitsLengthMonotone(k, |taken| + 1);
      SuffixedWithinMax(base, k);
    }
  }

  /** Generating again for the same text, once the first result is stored, gives a different slug. */
  lemma RegenerationDiffers(base: string, taken: set<string>)
    ensures UniqueSlug(base, taken + {UniqueSlug(base, taken)}) != UniqueSlug(base, taken)
  {
  }

  /** `FieldName.save`: a field without a slug gets a unique one; an existing slug is never recomputed. */
  function SaveSlug(slugify: string -> string, f: Field, taken: set<string>): (slug: string)
    ensures f.slug != "" ==> slug == f.slug
    ensures f.slug == "" ==> slug !in taken && slug == UniqueSlug(slugify(f.name), taken)
  {
    if f.slug == "" then UniqueSlug(slugify(f.name), taken) else f.slug
  }
}

=== FILE: store.dfy ===
/** The persisted entities (risk models, fields, submissions, values) as one immutable store. */
module Store {
  import opened Results

  /** A schema ("risk model"): a named form definition owning an ordered set of fields. */
  datatype RiskModel = RiskModel(
    id: nat,
    name: string,
    button: string,
    description: Option<string>,
    successMsg: Option<string>,
    activated: bool)

  /** One typed, constrained attribute of a risk model (`FieldName`). */
  datatype Field = Field(
    id: nat,
    riskModel: nat,
    name: string,
    slug: string,
    fieldType: string,
    default: Option<string>,
    regexPattern: Option<string>,
    minLength: Option<int>,
    maxLength: Option<int>,
    choices: Option<seq<string>>,
    required: bool,
    helpText: Option<string>,
    order: nat,
    unique: bool,
    deleted: bool)

  /** One attempt to submit data against a risk model (`FormSubmit`). */
  datatype Submission = Submission(id: nat, riskModel: nat, success: bool, createdOn: int)

  /** One submitted datum for a (submission, field) pair, stored as text (`FieldValue`). */
  datatype StoredValue = StoredValue(id: nat, submission: nat, field: nat, value: Option<string>)

  /** The tables of the store; rows are never physically removed. */
  datatype Store = Store(
    models: seq<RiskModel>,
    fields: seq<Field>,
    submissions: seq<Submission>,
    values: seq<StoredValue>)

  /** Auto-increment primary keys: the row at position `i` has id `i + 1`. */
  predicate SequentialIds(s: Store) {
    && (forall i | 0 <= i < |s.models| :: s.models[i].id == i + 1)
    && (forall i | 0 <= i < |s.fields| :: s.fields[i].id == i + 1)
    && (forall i | 0 <= i < |s.submissions| :: s.submissions[i].id == i + 1)
    && (forall i | 0 <= i < |s.values| :: s.values[i].id == i + 1)
  }

  /** Every foreign key refers to an existing row. */
  predicate ForeignKeysExist(s: Store) {
    && (forall i | 0 <= i < |s.fields| :: 1 <= s.fields[i].riskModel <= |s.models|)
    && (forall i | 0 <= i < |s.submissions| :: 1 <= s.submissions[i].riskModel <= |s.models|)
    && (forall i | 0 <= i < |s.values| ::
          1 <= s.values[i].submission <= |s.submissions| && 1 <= s.values[i].field <= |s.fields|)
  }

  predicate Valid(s: Store) {
    SequentialIds(s) && ForeignKeysExist(s)
  }

  /** No two live (not soft-deleted) fields share a slug. */
  predicate LiveSlugsUnique(fields: seq<Field>) {
    forall i, j | 0 <= i < j < |fields| && !fields[i].deleted && !fields[j].deleted ::
      fields[i].slug != fields[j].slug
  }

  /** The slugs `FieldName.objects` can see: those of live fields of every risk model. */
  function LiveSlugs(fields: seq<Field>): (r: set<string>)
    ensures forall i | 0 <= i < |fields| && !fields[i].deleted :: fields[i].slug in r
    ensures forall x | x in r :: exists i | 0 <= i < |fields| :: !fields[i].deleted && fields[i].slug == x
  {
    set i | 0 <= i < |fields| && !fields[i].deleted :: fields[i].slug
  }

  /** The elements of `s` satisfying `p`, in their original order. */
  function Filter<T(!new)>(s: seq<T>, p: T -> bool): (r: seq<T>)
    ensures |r| <= |s|
    ensures forall x :: x in r <==> x in s && p(x)
    ensures multiset(r) <= multiset(s)
    ensures (forall x | x in s :: !p(x)) ==> r == []
  {
    if |s| == 0 then []
    else
      assert s == [s[0]] + s[1..];
      if p(s[0]) then [s[0]] + Filter(s[1..], p) else Filter(s[1..], p)
  }

  /** A field with the model defaults: required, not unique, not deleted, and null nullable columns. */
  function NewField(id: nat, riskModel: nat, name: string, slug: string, fieldType: string, order: nat): (f: Field)
    ensures f.required && !f.unique && !f.deleted
    ensures f.id == id && f.riskModel == riskModel && f.name == name && f.slug == slug
    ensures f.fieldType == fieldType && f.order == order
    ensures f.default.None? && f.regexPattern.None? && f.minLength.None? && f.maxLength.None?
    ensures f.choices.None? && f.helpText.None?
  {
    Field(id, riskModel, name, slug, fieldType, None, None, None, None, None, true, None, order, false, false)
  }

  /** A freshly logged submission: `success` defaults to false. */
  function NewSubmission(id: nat, riskModel: nat, createdOn: int): (s: Submission)
    ensures !s.success && s.id == id && s.riskModel == riskModel && s.createdOn == createdOn
  {
    Submission(id, riskModel, false, createdOn)
  }

  /** `risk_model.fields.all()` through `NonDeletedFieldManager`: the live fields of one model. */
  function ActiveFields(fields: seq<Field>, riskModel: nat): (r: seq<Field>)
    ensures forall f :: f in r <==> f in fields && f.riskModel == riskModel && !f.deleted
  {
    Filter(fields, (f: Field) => f.riskModel == riskModel && !f.deleted)
  }

  /** `FieldName.all_objects` restricted to one model: soft-deleted fields included. */
  function AllFields(fields: seq<Field>, riskModel: nat): (r: seq<Field>)
    ensures forall f :: f in r <==> f in fields && f.riskModel == riskModel
  {
    Filter(fields, (f: Field) => f.riskModel == riskModel)
  }

  /** The default listing is the full listing with the soft-deleted fields removed, so it is never longer. */
  lemma {:induction false} ActiveWithinAll(fields: seq<Field>, riskModel: nat)
    ensures ActiveFields(fields, riskModel) == Filter(AllFields(fields, riskModel), (f: Field) => !f.deleted)
    ensures |ActiveFields(fields, riskModel)| <= |AllFields(fields, riskModel)|
    ensures forall f | f in AllFields(fields, riskModel) && !f.deleted :: f in ActiveFields(fields, riskModel)
  {
    if |fields| > 0 {
      ActiveWithinAll(fields[1..], riskModel);
    }
  }

  /** The position of the first row satisfying `p`, if any. */
  function FindFirst<T>(s: seq<T>, p: T -> bool): (r: Option<nat>)
    ensures r.Some? ==> r.value < |s| && p(s[r.value]) && forall j | 0 <= j < r.value :: !p(s[j])
    ensures r.None? ==> forall j | 0 <= j < |s| :: !p(s[j])
  {
    if |s| == 0 then None
    else if p(s[0]) then Some(0)
    else match FindFirst(s[1..], p)
      case None => None
      case Some(k) => Some(k + 1)
  }

  /** `RiskModel.objects.get(id=...)`: the model with that id, if it exists. */
  function FindModel(s: Store, id: nat): (r: Option<RiskModel>)
    ensures r.Some? ==> r.value in s.models && r.value.id == id
    ensures r.None? ==> forall m | m in s.models :: m.id != id
  {
    match FindFirst(s.models, (m: RiskModel) => m.id == id)
    case None => None
    case Some(k) => Some(s.models[k])
  }
}

=== FILE: submissions.dfy ===
/** Processing one risk-data submission (`RiskDataSerializer.validate`, `RiskDataProcessor`). */
module Submissions {
  import opened Results
  import opened Errors
  import opened Store
  import opened Values

  /** The risk-data request once DRF has parsed its envelope: the model id, the model's name as the
      client sent it, and the `data` dictionary as (slug, value) entries in iteration order. */
  datatype Request = Request(riskModel: int, riskModelName: string, data: seq<(string, Raw)>)

  /** The response of a successful submission. */
  datatype Receipt = Receipt(formSubmit: nat, riskModel: int, riskModelName: string, timeCreated: int)

  /** The store after processing, which keeps the submission row even when a value fails, and the verdict. */
  datatype Processed = Processed(store: Store, result: Result<Receipt, Error>)

  /** How an accepted file value is stored: by the code as written, or as evidently intended. */
  datatype FileStoring = AsWritten | NullKept

  /** The parsers, storage and clock the processing depends on, and the file-storing behaviour. */
  datatype Env = Env(parse: (Rule, Raw) -> Result<string, seq<string>>, storeFile: string -> string, now: int, storing: FileStoring)

  predicate IsBooleanTag(tag: string) {
    tag == "checkbox" || tag == "switch"
  }

  /** `build_field_value_object`: an empty string becomes null, and a null boolean becomes false. */
  function BuildValue(f: Field, raw: Raw): (r: Raw)
    ensures r != Text("")
    ensures IsBooleanTag(f.fieldType) ==> !r.NullValue?
    ensures (raw == Text("") || raw.NullValue?) && IsBooleanTag(f.fieldType) ==> r == Flag(false)
    ensures (raw == Text("") || raw.NullValue?) && !IsBooleanTag(f.fieldType) ==> r == NullValue
    ensures raw != Text("") && !raw.NullValue? ==> r == raw
  {
    var v := if raw == Text("") then NullValue else raw;
    if IsBooleanTag(f.fieldType) && v.NullValue? then Flag(false) else v
  }

  /** Building a value twice changes nothing more. */
  lemma BuildValueIdempotent(f: Field, raw: Raw)
    ensures BuildValue(f, BuildValue(f, raw)) == BuildValue(f, raw)
  {
  }

  /** The slugs of the request's data, in order. */
  function Keys(data: seq<(string, Raw)>): (r: seq<string>)
    ensures |r| == |data| && forall j | 0 <= j < |data| :: r[j] == data[j].0
  {
    seq(|data|, j requires 0 <= j < |data| => data[j].0)
  }

  /** The first field of the list that is required and whose slug is not a key of the data. */
  function MissingRequired(fields: seq<Field>, keys: seq<string>): (r: Option<Field>)
    ensures r.None? <==> forall f | f in fields :: f.required ==> f.slug in keys
    ensures r.Some? ==> r.value in fields && r.value.required && r.value.slug !in keys
  {
    if |fields| == 0 then None
    else if fields[0].required && fields[0].slug !in keys then Some(fields[0])
    else
      assert forall f | f in fields :: f == fields[0] || f in fields[1..];
      MissingRequired(fields[1..], keys)
  }

  /** The message for a required field missing from the data. */
  function RequiredMessage(name: string): (m: string)
    ensures |m| > |name| && m[..|name|] == name && m[|name|..] == " is required."
  {
    name + " is required."
  }

  /** `RiskDataSerializer.validate`: the model must exist (`RiskModel.objects.get` is not guarded,
      so a missing model is an unhandled `DoesNotExist`); then every required live field of the
      model must have its slug among the data keys. */
  function CheckRequired(st: Store, req: Request): (r: Result<nat, Error>)
    ensures req.riskModel < 0 || FindModel(st, req.riskModel as nat).None? ==> r == Err(Unhandled("RiskModel.DoesNotExist"))
    ensures r.Ok? ==> r.value == req.riskModel && FindModel(st, r.value).Some?
    ensures r.Ok? ==> forall f | f in st.fields && f.riskModel == r.value && !f.deleted && f.required :: f.slug in Keys(req.data)
    ensures r.Err? && r.error.Invalid? ==>
      exists f | f in st.fields && f.riskModel == req.riskModel && !f.deleted && f.required ::
        f.slug !in Keys(req.data) && r.error.detail == map["data" := [RequiredMessage(f.name)]]
    ensures r.Err? ==> r.error.Invalid? || r.error == Unhandled("RiskModel.DoesNotExist")
  {
    if req.riskModel < 0 || FindModel(st, req.riskModel as nat).None? then Err(Unhandled("RiskModel.DoesNotExist"))
    else
      var id := req.riskModel as nat;
      match MissingRequired(ActiveFields(st.fields, id), Keys(req.data))
      case Some(f) => Err(Invalid(map["data" := [RequiredMessage(f.name)]]))
      case None => Ok(id)
  }

  /** The live fields carrying `slug`, of any model. */
  function LiveWithSlug(fields: seq<Field>, slug: string): (r: seq<Field>)
    ensures forall f :: f in r <==> f in fields && !f.deleted && f.slug == slug
  {
    Filter(fields, (f: Field) => !f.deleted && f.slug == slug)
  }

  /** With live slugs unique, at most one live field carries a given slug. */
  lemma {:induction false} AtMostOneLive(fields: seq<Field>, slug: string)
    requires LiveSlugsUnique(fields)
    ensures |LiveWithSlug(fields, slug)| <= 1
  {
    if |fields| > 0 {
      var rest := fields[1..];
      assert LiveSlugsUnique(rest) by {
        forall i, j | 0 <= i < j < |rest| && !rest[i].deleted && !rest[j].deleted
          ensures rest[i].slug != rest[j].slug
        {
          assert rest[i] == fields[i + 1] && rest[j] == fields[j + 1];
        }
      }
      AtMostOneLive(rest, slug);
      if !fields[0].deleted && fields[0].slug == slug {
        forall g | g in rest
          ensures g.deleted || g.slug != slug
        {
          var k :| 0 <= k < |rest| && rest[k] == g;
          assert fields[k + 1] == g;
        }
      }
    }
  }

  /** `get_object_or_404(FieldName, slug=...)` through the live-only default manager: a miss is a
      404 and more than one match is an unhandled `MultipleObjectsReturned`. */
  function LookupLiveSlug(fields: seq<Field>, slug: string): (r: Result<Field, Error>)
    ensures r.Ok? ==> r.value in fields && !r.value.deleted && r.value.slug == slug
    ensures r == Err(NotFound) <==> forall f | f in fields :: f.deleted || f.slug != slug
    ensures r.Err? ==> r.error == NotFound || r.error == Unhandled("MultipleObjectsReturned")
    ensures LiveSlugsUnique(fields) ==> r.Ok? || r.error == NotFound
  {
    var found := LiveWithSlug(fields, slug);
    assert LiveSlugsUnique(fields) ==> |found| <= 1 by {
      if LiveSlugsUnique(fields) {
        AtMostOneLive(fields, slug);
      }
    }
    if |found| == 0 then Err(NotFound)
    else
      assert found[0] in found;
      if |found| > 1 then Err(Unhandled("MultipleObjectsReturned")) else Ok(found[0])
  }

  /** The error dictionary a failed value raises: the `"value"` key is renamed to the field's
      display name; any other dictionary is raised unchanged. */
  function RenameValueKey(d: Detail, name: string): (r: Detail)
    ensures "value" in d ==> name in r && r[name] == d["value"]
    ensures "value" in d ==> forall k | k in d && k != "value" && k != name :: k in r && r[k] == d[k]
    ensures "value" in d && name != "value" ==> "value" !in r
    ensures "value" !in d ==> r == d
  {
    if "value" in d then (d - {"value"})[name := d["value"]] else d
  }

  /** `store_file(value)` on the raw value of a file field, as written: it reads `value.name`, so a
      null or empty value that the optional field's validator let through raises `AttributeError`. */
  function StoreFileAsWritten(storeFile: string -> string, raw: Raw): (r: Result<Option<string>, Error>)
    ensures raw.Upload? ==> r == Ok(Some(storeFile(raw.fileName)))
    ensures !raw.Upload? ==> r == Err(Unhandled("AttributeError"))
  {
    match raw
    case Upload(name) => Ok(Some(storeFile(name)))
    case _ => Err(Unhandled("AttributeError"))
  }

  /** The evidently intended storing: an accepted null file value is stored as null. */
  function StoreFile(storeFile: string -> string, raw: Raw, validated: Option<string>): (r: Result<Option<string>, Error>)
    ensures validated.None? ==> r == Ok(None)
    ensures validated.Some? ==> r == StoreFileAsWritten(storeFile, raw)
  {
    if validated.None? then Ok(None) else StoreFileAsWritten(storeFile, raw)
  }

  /** The storing of an accepted file value under the given behaviour. */
  function StoreBy(storing: FileStoring, storeFile: string -> string, raw: Raw, validated: Option<string>): (r: Result<Option<string>, Error>)
    ensures storing == AsWritten ==> r == StoreFileAsWritten(storeFile, raw)
    ensures storing == NullKept ==> r == StoreFile(storeFile, raw, validated)
  {
    match storing
    case AsWritten => StoreFileAsWritten(storeFile, raw)
    case NullKept => StoreFile(storeFile, raw, validated)
  }

  /** One (slug, value) entry: look the field up, build the value, build and run its serializer,
      store a file. With `AsWritten` storing this is `create_fields_data`'s loop body as written. */
  function ProcessEntry(env: Env, st: Store, key: string, raw: Raw): (r: Result<(Field, Option<string>), Error>)
    ensures r.Ok? ==> r.value.0 in st.fields && !r.value.0.deleted && r.value.0.slug == key
    ensures LookupLiveSlug(st.fields, key).Err? ==> r == Err(LookupLiveSlug(st.fields, key).error)
    ensures LookupLiveSlug(st.fields, key).Ok? ==>
      var f := LookupLiveSlug(st.fields, key).value;
      var v := ValidateValue(env.parse, st, f, BuildValue(f, raw));
      && (v.Err? && v.error.Invalid? ==> r == Err(Invalid(RenameValueKey(v.error.detail, f.name))))
      && (v.Err? && !v.error.Invalid? ==> r == Err(v.error))
      && (v.Ok? && f.fieldType != "file" ==> r == Ok((f, v.value)))
      && (v.Ok? && f.fieldType == "file" && env.storing == AsWritten ==>
            r == if raw.Upload? then Ok((f, Some(env.storeFile(raw.fileName)))) else Err(Unhandled("AttributeError")))
      && (v.Ok? && f.fieldType == "file" && env.storing == NullKept && v.value.None? ==> r == Ok((f, None)))
      && (v.Ok? && f.fieldType == "file" && env.storing == NullKept && v.value.Some? ==>
            r == if raw.Upload? then Ok((f, Some(env.storeFile(raw.fileName)))) else Err(Unhandled("AttributeError")))
  {
    var f :- LookupLiveSlug(st.fields, key);
    match ValidateValue(env.parse, st, f, BuildValue(f, raw))
    case Err(Invalid(d)) => Err(Invalid(RenameValueKey(d, f.name)))
    case Err(e) => Err(e)
    case Ok(v) =>
      if f.fieldType == "file" then
        var stored :- StoreBy(env.storing, env.storeFile, raw, v);
        Ok((f, stored))
      else Ok((f, v))
  }

  /** An optional file field submitted empty passes validation; the code as written then fails with
      `AttributeError`, while the intended storing keeps a null value. */
  lemma OptionalEmptyFileFails(env: Env, st: Store, key: string)
    requires LookupLiveSlug(st.fields, key).Ok?
    requires var f := LookupLiveSlug(st.fields, key).value; f.fieldType == "file" && !f.required && !f.unique
    ensures ProcessEntry(env.(storing := AsWritten), st, key, Text("")) == Err(Unhandled("AttributeError"))
    ensures ProcessEntry(env.(storing := NullKept), st, key, Text("")) == Ok((LookupLiveSlug(st.fields, key).value, None))
  {
    var f := LookupLiveSlug(st.fields, key).value;
    assert BuildValue(f, Text("")) == NullValue;
    assert ValidateValue(env.parse, st, f, NullValue) == Ok(None);
  }

  /** `id` names a live field of the store carrying `slug`. */
  predicate LiveFieldWithSlug(fields: seq<Field>, id: nat, slug: string) {
    exists f | f in fields :: f.id == id && !f.deleted && f.slug == slug
  }

  /** `row` is the value row numbered `id` stored for entry `key` of `submission`. */
  predicate RowFor(fields: seq<Field>, row: StoredValue, id: nat, submission: nat, key: string) {
    row.id == id && row.submission == submission && LiveFieldWithSlug(fields, row.field, key)
  }

  /** Whether one entry passes on its own. */
  predicate EntryPasses(env: Env, st: Store, entry: (string, Raw)) {
    ProcessEntry(env, st, entry.0, entry.1).Ok?
  }

  /** The outcome of processing one entry: the field it names and the text to store. */
  type EntryResult = Result<(Field, Option<string>), Error>

  /** The loop of `create_fields_data` over the entries: entries are processed in order and the
      first error is raised; otherwise each entry becomes a value row, with consecutive ids after
      `base`. */
  function StoreRows(entry: ((string, Raw)) -> EntryResult, submission: nat, data: seq<(string, Raw)>, base: nat): (r: Result<seq<StoredValue>, Error>)
    ensures r.Ok? <==> forall j | 0 <= j < |data| :: entry(data[j]).Ok?
    ensures r.Err? ==> exists j | 0 <= j < |data| ::
      && entry(data[j]) == Err(r.error)
      && forall k | 0 <= k < j :: entry(data[k]).Ok?
    ensures r.Ok? ==> |r.value| == |data| && forall j | 0 <= j < |data| ::
      r.value[j] == StoredValue(base + j + 1, submission, entry(data[j]).value.0.id, entry(data[j]).value.1)
    decreases |data|
  {
    if |data| == 0 then Ok([])
    else
      var rest := data[1..];
      assert forall j | 0 < j < |data| :: data[j] == rest[j - 1];
      match entry(data[0])
      case Err(e) => Err(e)
      case Ok(fv) =>
        match StoreRows(entry, submission, rest, base + 1)
        case Err(e) =>
          var j :| 0 <= j < |rest| && entry(rest[j]) == Err(e) && forall k | 0 <= k < j :: entry(rest[k]).Ok?;
          assert entry(data[j + 1]) == Err(e);
          Err(e)
        case Ok(rows) =>
          Ok([StoredValue(base + 1, submission, fv.0.id, fv.1)] + rows)
  }

  /** The value rows a submission's entries become, or the first error. Nothing is written until
      every entry has passed. */
  function ProcessEntries(env: Env, st: Store, submission: nat, data: seq<(string, Raw)>, base: nat): (r: Result<seq<StoredValue>, Error>)
    ensures r.Ok? <==> forall j | 0 <= j < |data| :: EntryPasses(env, st, data[j])
    ensures r.Ok? ==> |r.value| == |data|
    ensures r.Ok? ==> forall j | 0 <= j < |data| :: RowFor(st.fields, r.value[j], base + j + 1, submission, data[j].0)
  {
    var entry := (e: (string, Raw)) => ProcessEntry(env, st, e.0, e.1);
    var r := StoreRows(entry, submission, data, base);
    assert r.Ok? ==> forall j | 0 <= j < |data| :: RowFor(st.fields, r.value[j], base + j + 1, submission, data[j].0) by {
      if r.Ok? {
        forall j | 0 <= j < |data|
          ensures RowFor(st.fields, r.value[j], base + j + 1, submission, data[j].0)
        {
          var f := ProcessEntry(env, st, data[j].0, data[j].1).value.0;
          assert f in st.fields && f.id == r.value[j].field;
        }
      }
    }
    r
  }

  /** After the first `prior` rows, `values` holds one row per entry of `data`, each numbered in
      sequence, belonging to the submission and referring to the live field the entry names. */
  predicate NewRows(fields: seq<Field>, values: seq<StoredValue>, prior: nat, submission: nat, data: seq<(string, Raw)>) {
    && |values| == prior + |data|
    && forall i | prior <= i < |values| :: RowFor(fields, values[i], i + 1, submission, data[i - prior].0)
  }

  /** Rows numbered on from the existing values, appended after them, are the new rows of the
      submission. */
  lemma AppendedRowsAreNew(fields: seq<Field>, prior: seq<StoredValue>, rows: seq<StoredValue>, submission: nat, data: seq<(string, Raw)>)
    requires |rows| == |data|
    requires forall j | 0 <= j < |data| :: RowFor(fields, rows[j], |prior| + j + 1, submission, data[j].0)
    ensures NewRows(fields, prior + rows, |prior|, submission, data)
  {
    var values := prior + rows;
    forall i | |prior| <= i < |values|
      ensures RowFor(fields, values[i], i + 1, submission, data[i - |prior|].0)
    {
      assert values[i] == rows[i - |prior|];
    }
  }

  /** The store once the submission row is logged with `success` false. */
  function Logged(st: Store, model: nat, now: int): (r: Store)
    ensures r.submissions == st.submissions + [NewSubmission(|st.submissions| + 1, model, now)]
    ensures r.models == st.models && r.fields == st.fields && r.values == st.values
  {
    st.(submissions := st.submissions + [NewSubmission(|st.submissions| + 1, model, now)])
  }

  /** `create_fields_data`: a submission row with `success` false is logged first; then every entry
      is processed; only when all pass are the value rows bulk-created and the submission flipped
      to `success`. On a failure the submission row stays, unsuccessful, and no value is stored. */
  function Submit(env: Env, st: Store, model: nat, req: Request): (r: Processed)
    ensures r.store.models == st.models && r.store.fields == st.fields
    ensures |r.store.submissions| == |st.submissions| + 1
    ensures r.store.submissions[..|st.submissions|] == st.submissions
    ensures r.store.submissions[|st.submissions|].(success := false) == NewSubmission(|st.submissions| + 1, model, env.now)
    ensures r.result.Ok? <==> ProcessEntries(env, Logged(st, model, env.now), |st.submissions| + 1, req.data, |st.values|).Ok?
    ensures r.result.Err? ==> r.store == Logged(st, model, env.now)
    ensures r.result.Ok? ==>
      && r.result.value == Receipt(|st.submissions| + 1, req.riskModel, req.riskModelName, env.now)
      && r.store.submissions[|st.submissions|].success
      && |r.store.values| == |st.values| + |req.data|
      && r.store.values[..|st.values|] == st.values
    ensures r.result.Ok? ==> NewRows(st.fields, r.store.values, |st.values|, |st.submissions| + 1, req.data)
  {
    var logged := Logged(st, model, env.now);
    var sub := logged.submissions[|st.submissions|];
    match ProcessEntries(env, logged, sub.id, req.data, |st.values|)
    case Err(e) => Processed(logged, Err(e))
    case Ok(rows) =>
      var done := logged.(submissions := st.submissions + [sub.(success := true)], values := st.values + rows);
      assert done.values[..|st.values|] == st.values;
      AppendedRowsAreNew(st.fields, st.values, rows, sub.id, req.data);
      Processed(done, Ok(Receipt(sub.id, req.riskModel, req.riskModelName, env.now)))
  }

  /** A submission is accepted exactly when every entry passes on its own against the store with
      the submission logged. */
  lemma SubmitAcceptsIffAllPass(env: Env, st: Store, model: nat, req: Request)
    ensures Submit(env, st, model, req).result.Ok? <==>
      forall j | 0 <= j < |req.data| :: EntryPasses(env, Logged(st, model, env.now), req.data[j])
  {
  }

  /** `RiskDataViewSet.create` after the envelope is parsed: the required check, which writes
      nothing when it fails, then the submission itself. */
  function Process(env: Env, st: Store, req: Request): (r: Processed)
    ensures CheckRequired(st, req).Err? ==> r == Processed(st, Err(CheckRequired(st, req).error))
    ensures CheckRequired(st, req).Ok? ==> r == Submit(env, st, req.riskModel as nat, req)
    ensures r.store == st <==> CheckRequired(st, req).Err?
    ensures r.result.Ok? ==>
      && req.riskModel >= 0 && FindModel(st, req.riskModel as nat).Some?
      && (forall f | f in st.fields && f.riskModel == req.riskModel && !f.deleted && f.required :: f.slug in Keys(req.data))
      && |r.store.submissions| == |st.submissions| + 1 && r.store.submissions[|st.submissions|].success
      && |r.store.values| == |st.values| + |req.data|
    ensures r.result.Ok? <==>
      CheckRequired(st, req).Ok?
      && forall j | 0 <= j < |req.data| :: EntryPasses(env, Logged(st, req.riskModel as nat, env.now), req.data[j])
  {
    match CheckRequired(st, req)
    case Err(e) => Processed(st, Err(e))
    case Ok(model) => Submit(env, st, model, req)
  }

  /** Appending a submission and value rows with the next ids and resolvable keys keeps a store
      valid. */
  lemma ValidAfterAppend(st: Store, after: Store, sub: Submission)
    requires Valid(st)
    requires after.models == st.models && after.fields == st.fields
    requires after.submissions == st.submissions + [sub]
    requires sub.id == |st.submissions| + 1 && 1 <= sub.riskModel <= |st.models|
    requires |after.values| >= |st.values| && after.values[..|st.values|] == st.values
    requires forall i | |st.values| <= i < |after.values| ::
      after.values[i].id == i + 1 && after.values[i].submission == sub.id && 1 <= after.values[i].field <= |st.fields|
    ensures Valid(after)
  {
    assert forall i | 0 <= i < |st.values| :: after.values[i] == st.values[i];
  }

  /** Rows stored for live fields found by slug refer to existing fields when field ids are sequential. */
  lemma NewRowsInRange(fields: seq<Field>, prior: nat, values: seq<StoredValue>, submission: nat, data: seq<(string, Raw)>)
    requires forall i | 0 <= i < |fields| :: fields[i].id == i + 1
    requires NewRows(fields, values, prior, submission, data)
    ensures forall i | prior <= i < |values| ::
      values[i].id == i + 1 && values[i].submission == submission && 1 <= values[i].field <= |fields|
  {
    forall i | prior <= i < |values|
      ensures 1 <= values[i].field <= |fields|
    {
      var f :| f in fields && f.id == values[i].field && !f.deleted && f.slug == data[i - prior].0;
      var k :| 0 <= k < |fields| && fields[k] == f;
    }
  }

  /** A store grown as a submission grows it (one logged submission, then either no value rows or
      one row per entry) stays valid. */
  lemma ValidAfterSubmission(st: Store, out: Processed, model: nat, data: seq<(string, Raw)>)
    requires Valid(st) && 1 <= model <= |st.models|
    requires out.store.models == st.models && out.store.fields == st.fields
    requires |out.store.submissions| == |st.submissions| + 1
    requires out.store.submissions[..|st.submissions|] == st.submissions
    requires out.store.submissions[|st.submissions|].(success := false) == NewSubmission(|st.submissions| + 1, model, out.store.submissions[|st.submissions|].createdOn)
    requires out.result.Err? ==> out.store.values == st.values
    requires out.result.Ok? ==> |out.store.values| >= |st.values| && out.store.values[..|st.values|] == st.values
    requires out.result.Ok? ==> NewRows(st.fields, out.store.values, |st.values|, |st.submissions| + 1, data)
    ensures Valid(out.store)
  {
    var after := out.store;
    var sub := after.submissions[|st.submissions|];
    assert after.submissions == st.submissions + [sub];
    if out.result.Ok? {
      NewRowsInRange(st.fields, |st.values|, after.values, |st.submissions| + 1, data);
    } else {
      assert after.values[..|st.values|] == st.values;
    }
    ValidAfterAppend(st, after, sub);
  }

  /** Submitting keeps the store's ids sequential and its foreign keys resolvable. */
  lemma SubmitPreservesValid(env: Env, st: Store, model: nat, req: Request)
    requires Valid(st) && 1 <= model <= |st.models|
    ensures Valid(Submit(env, st, model, req).store)
  {
    ValidAfterSubmission(st, Submit(env, st, model, req), model, req.data);
  }

  /** Processing keeps the store valid: a model that passes the required check exists. */
  lemma ProcessPreservesValid(env: Env, st: Store, req: Request)
    requires Valid(st)
    ensures Valid(Process(env, st, req).store)
  {
    if CheckRequired(st, req).Ok? {
      var model := CheckRequired(st, req).value;
      var k :| 0 <= k < |st.models| && st.models[k].id == model;
      SubmitPreservesValid(env, st, model, req);
    }
  }
}

=== FILE: values.dfy ===
/** Type-dispatched validation of one submitted value (`FieldValueSerializer`). */
module Values {
  import opened Results
  import opened Errors
  import opened Store
  import Registry

  /** A submitted value as it reaches the serializer: null, text (JSON numbers arrive as their
      text), a boolean, a list of strings, or an uploaded file. */
  datatype Raw = NullValue | Text(text: string) | Flag(flag: bool) | Items(items: seq<string>) | Upload(fileName: string)

  /** The textual formats a character rule checks. */
  datatype TextFormat = Plain | Email | Url | Pattern(pattern: Option<string>)

  /** The DRF field class a type tag selects, with the field's own arguments. */
  datatype Kind =
    | Chars(format: TextFormat, minLength: Option<int>, maxLength: Option<int>)
    | Float
    | Integer
    | Date
    | Time
    | Choice(choices: Option<seq<string>>)
    | MultipleChoice(choices: Option<seq<string>>)
    | Boolean
    | List
    | File

  /** A value rule: its kind, and whether `None` is accepted. */
  datatype Rule = Rule(kind: Kind, allowNull: bool)

  const NullMessage := "This field may not be null."
  const DuplicateMessage := "An entry with this value already exists."

  /** What follows the tag in the message of an unregistered type tag. */
  const UnknownTypeSuffix := " is not a valid field type."

  /** The tags whose value field is a (multiple) choice field built from the field's `choices`. */
  predicate IsChoiceTag(tag: string) {
    tag == "select" || tag == "radio" || tag == "multiselect"
  }

  /** A choice rule without a choice list: DRF's `ChoiceField` iterates its `choices` argument when
      it is built, so building it from `None` raises `TypeError`. */
  predicate Unbuildable(rule: Rule) {
    rule.kind == Choice(None) || rule.kind == MultipleChoice(None)
  }

  /** The rule `FieldValueSerializer.__init__` installs for a field, or `None` for a tag it does not
      know. Every rule except the boolean one accepts null exactly when the field is optional. */
  function RuleFor(f: Field): (r: Option<Rule>)
    ensures r.Some? <==> Registry.IsFieldType(f.fieldType)
    ensures r.Some? && r.value.kind != Boolean ==> r.value.allowNull == !f.required
    ensures r.Some? && r.value.kind == Boolean ==> !r.value.allowNull
    ensures r.Some? ==> (Unbuildable(r.value) <==> IsChoiceTag(f.fieldType) && f.choices.None?)
  {
    var optional := !f.required;
    match Registry.ParseTag(f.fieldType)
    case None => None
    case Some(t) =>
      match t
      case Text => Some(Rule(Chars(Plain, f.minLength, f.maxLength), optional))
      case TextArea => Some(Rule(Chars(Plain, f.minLength, f.maxLength), optional))
      case Password => Some(Rule(Chars(Plain, f.minLength, f.maxLength), optional))
      case Email => Some(Rule(Chars(Email, f.minLength, f.maxLength), optional))
      case Float => Some(Rule(Float, optional))
      case Number => Some(Rule(Integer, optional))
      case Date => Some(Rule(Date, optional))
      case Time => Some(Rule(Time, optional))
      case Select => Some(Rule(Choice(f.choices), optional))
      case Radio => Some(Rule(Choice(f.choices), optional))
      case MultiSelect => Some(Rule(MultipleChoice(f.choices), optional))
      case Checkbox => Some(Rule(Boolean, false))
      case Switch => Some(Rule(Boolean, false))
      case Url => Some(Rule(Chars(Url, f.minLength, f.maxLength), optional))
      case Array => Some(Rule(List, optional))
      case Regex => Some(Rule(Chars(Pattern(f.regexPattern), f.minLength, f.maxLength), optional))
      case File => Some(Rule(File, optional))
  }

  /** The dispatch covers the registry exactly: a tag selects a rule iff one of the `FIELD_TYPES`
      pairs carries it. */
  lemma RuleForCoversRegistry(f: Field)
    ensures RuleFor(f).Some? <==> exists i | 0 <= i < |Registry.FieldTypes| :: Registry.FieldTypes[i].0 == f.fieldType
  {
    Registry.ParseTagMatchesRegistry(f.fieldType);
  }

  /** A rule applied to a value: DRF's null handling, then the library parser, which yields the
      text the value column stores or the parser's messages. */
  function ApplyRule(parse: (Rule, Raw) -> Result<string, seq<string>>, rule: Rule, raw: Raw): (r: Result<Option<string>, seq<string>>)
    ensures raw.NullValue? ==> (r.Ok? <==> rule.allowNull)
    ensures raw.NullValue? && r.Ok? ==> r.value == None
    ensures raw.NullValue? && r.Err? ==> r.error == [NullMessage]
    ensures !raw.NullValue? ==> (r.Ok? <==> parse(rule, raw).Ok?)
    ensures !raw.NullValue? && r.Ok? ==> r.value == Some(parse(rule, raw).value)
  {
    if raw.NullValue? then
      if rule.allowNull then Ok(None) else Err([NullMessage])
    else
      match parse(rule, raw)
      case Ok(text) => Ok(Some(text))
      case Err(msgs) => Err(msgs)
  }

  /** Whether a submission with this id was completed successfully. */
  predicate Succeeded(st: Store, submission: nat) {
    exists s | s in st.submissions :: s.id == submission && s.success
  }

  /** A stored value of the field equal to `v` under a successful submission exists. */
  predicate Duplicate(st: Store, field: nat, v: Option<string>) {
    exists x | x in st.values :: x.field == field && x.value == v && Succeeded(st, x.submission)
  }

  /** The `FieldValue.objects.filter(field, value, form_submit__success=True).exists()` query, as a
      scan of the value rows. */
  function HasDuplicate(st: Store, rows: seq<StoredValue>, field: nat, v: Option<string>): (r: bool)
    ensures r <==> exists x | x in rows :: x.field == field && x.value == v && Succeeded(st, x.submission)
  {
    if |rows| == 0 then false
    else
      (rows[0].field == field && rows[0].value == v && Succeeded(st, rows[0].submission))
      || HasDuplicate(st, rows[1..], field, v)
  }

  /** `FieldValueSerializer` built and validated for one field and raw value: an unknown tag replaces
      all errors with a `"fields"` error; a choice field without choices cannot be built; a parser
      error is keyed `"value"`; a value that duplicates a successful submission's value of a unique
      field is keyed by the field's display name. */
  function ValidateValue(parse: (Rule, Raw) -> Result<string, seq<string>>, st: Store, f: Field, raw: Raw): (r: Result<Option<string>, Error>)
    ensures !Registry.IsFieldType(f.fieldType) ==> r == Err(Invalid(map["fields" := [f.fieldType + UnknownTypeSuffix]]))
    ensures Registry.IsFieldType(f.fieldType) && IsChoiceTag(f.fieldType) && f.choices.None? ==> r == Err(Unhandled("TypeError"))
    ensures RuleFor(f).Some? && !Unbuildable(RuleFor(f).value) ==>
      var applied := ApplyRule(parse, RuleFor(f).value, raw);
      && (applied.Err? ==> r == Err(Invalid(map["value" := applied.error])))
      && (applied.Ok? && !(f.unique && Duplicate(st, f.id, applied.value)) ==> r == Ok(applied.value))
      && (applied.Ok? && f.unique && Duplicate(st, f.id, applied.value) ==> r == Err(Invalid(map[f.name := [DuplicateMessage]])))
    ensures r.Ok? ==> Registry.IsFieldType(f.fieldType) && !(IsChoiceTag(f.fieldType) && f.choices.None?)
    ensures r.Ok? ==> !(f.unique && Duplicate(st, f.id, r.value))
    ensures r.Ok? && r.value.None? ==> !f.required
    ensures r.Err? && r.error.Invalid? ==> |r.error.detail| == 1
  {
    match RuleFor(f)
    case None => Err(Invalid(map["fields" := [f.fieldType + UnknownTypeSuffix]]))
    case Some(rule) =>
      if Unbuildable(rule) then Err(Unhandled("TypeError"))
      else
        match ApplyRule(parse, rule, raw)
        case Err(msgs) => Err(Invalid(map["value" := msgs]))
        case Ok(v) =>
          if f.unique && HasDuplicate(st, st.values, f.id, v) then Err(Invalid(map[f.name := [DuplicateMessage]]))
          else Ok(v)
  }

  /** Null is accepted for a registered, non-boolean, non-unique field that can be built exactly
      when it is optional. */
  lemma NullAcceptedIffOptional(parse: (Rule, Raw) -> Result<string, seq<string>>, st: Store, f: Field)
    requires Registry.IsFieldType(f.fieldType) && f.fieldType != "checkbox" && f.fieldType != "switch"
    requires !f.unique
    ensures IsChoiceTag(f.fieldType) && f.choices.None? ==> ValidateValue(parse, st, f, NullValue) == Err(Unhandled("TypeError"))
    ensures !(IsChoiceTag(f.fieldType) && f.choices.None?) ==> (ValidateValue(parse, st, f, NullValue).Ok? <==> !f.required)
    ensures !(IsChoiceTag(f.fieldType) && f.choices.None?) && !f.required ==> ValidateValue(parse, st, f, NullValue) == Ok(None)
    ensures !(IsChoiceTag(f.fieldType) && f.choices.None?) && f.required ==>
      ValidateValue(parse, st, f, NullValue) == Err(Invalid(map["value" := [NullMessage]]))
  {
  }

  /** A parsed value equal to a successful submission's value of a unique field is rejected,
      keyed by the field's display name. */
  lemma DuplicateRejected(parse: (Rule, Raw) -> Result<string, seq<string>>, st: Store, f: Field, raw: Raw)
    requires f.unique && Registry.IsFieldType(f.fieldType) && !Unbuildable(RuleFor(f).value)
    requires ApplyRule(parse, RuleFor(f).value, raw).Ok?
    requires Duplicate(st, f.id, ApplyRule(parse, RuleFor(f).value, raw).value)
    ensures ValidateValue(parse, st, f, raw) == Err(Invalid(map[f.name := [DuplicateMessage]]))
  {
  }

  /** Values stored under submissions that did not succeed never make a value a duplicate. */
  lemma FailedSubmissionsIgnored(parse: (Rule, Raw) -> Result<string, seq<string>>, st: Store, extra: seq<StoredValue>, f: Field, raw: Raw)
    requires forall x | x in extra :: !Succeeded(st, x.submission)
    ensures ValidateValue(parse, st.(values := st.values + extra), f, raw) == ValidateValue(parse, st, f, raw)
  {
    var st' := st.(values := st.values + extra);
    assert forall sid :: Succeeded(st', sid) == Succeeded(st, sid);
    forall v
      ensures HasDuplicate(st', st'.values, f.id, v) == HasDuplicate(st, st.values, f.id, v)
    {
      if HasDuplicate(st', st'.values, f.id, v) {
        var x :| x in st'.values && x.field == f.id && x.value == v && Succeeded(st', x.submission);
        assert x in st.values;
      }
    }
  }
}

=== FILE: views.dfy ===
/** What the read-only endpoints list: the submission log, a submission's values with file
    locations turned into URLs, the field-type choices and the risk-model listing. */
module Views {
  import opened Results
  import opened Store
  import Registry

  /** Strictly increasing keys along the sequence. */
  predicate Ascending<T>(s: seq<T>, key: T -> int) {
    forall i, j | 0 <= i < j < |s| :: key(s[i]) < key(s[j])
  }

  /** Strictly decreasing keys along the sequence. */
  predicate Descending<T>(s: seq<T>, key: T -> int) {
    forall i, j | 0 <= i < j < |s| :: key(s[i]) > key(s[j])
  }

  /** Dropping the first element keeps an ascending order. */
  lemma AscendingTail<T>(s: seq<T>, key: T -> int)
    requires |s| > 0 && Ascending(s, key)
    ensures Ascending(s[1..], key)
    ensures forall x | x in s[1..] :: key(s[0]) < key(x)
  {
    var rest := s[1..];
    forall i, j | 0 <= i < j < |rest|
      ensures key(rest[i]) < key(rest[j])
    {
      assert rest[i] == s[i + 1] && rest[j] == s[j + 1];
    }
    forall x | x in rest
      ensures key(s[0]) < key(x)
    {
      var j :| 0 <= j < |rest| && rest[j] == x;
      assert s[j + 1] == x;
    }
  }

  /** An element below everything in an ascending sequence can be put in front of it. */
  lemma AscendingCons<T>(x: T, t: seq<T>, key: T -> int)
    requires Ascending(t, key) && forall y | y in t :: key(x) < key(y)
    ensures Ascending([x] + t, key)
  {
    var r := [x] + t;
    forall i, j | 0 <= i < j < |r|
      ensures key(r[i]) < key(r[j])
    {
      assert r[j] == t[j - 1] && t[j - 1] in t;
      if i > 0 {
        assert r[i] == t[i - 1];
      }
    }
  }

  /** Keeping a subsequence keeps an ascending order. */
  lemma {:induction false} FilterAscending<T(!new)>(s: seq<T>, p: T -> bool, key: T -> int)
    requires Ascending(s, key)
    ensures Ascending(Filter(s, p), key)
    decreases |s|
  {
    if |s| > 0 {
      AscendingTail(s, key);
      FilterAscending(s[1..], p, key);
      if p(s[0]) {
        AscendingCons(s[0], Filter(s[1..], p), key);
      }
    }
  }

  /** The sequence in reverse order. */
  function Reverse<T(!new)>(s: seq<T>): (r: seq<T>)
    ensures |r| == |s| && forall i | 0 <= i < |s| :: r[i] == s[|s| - 1 - i]
    ensures forall x :: x in r <==> x in s
  {
    var r := seq(|s|, i requires 0 <= i < |s| => s[|s| - 1 - i]);
    assert forall x | x in s :: x in r by {
      forall x | x in s
        ensures x in r
      {
        var i :| 0 <= i < |s| && s[i] == x;
        assert r[|s| - 1 - i] == x;
      }
    }
    r
  }

  /** Reversing an ascending sequence gives a descending one. */
  lemma ReverseDescending<T(!new)>(s: seq<T>, key: T -> int)
    requires Ascending(s, key)
    ensures Descending(Reverse(s), key)
  {
    var r := Reverse(s);
    forall i, j | 0 <= i < j < |r|
      ensures key(r[i]) > key(r[j])
    {
      assert r[i] == s[|s| - 1 - i] && r[j] == s[|s| - 1 - j];
    }
  }

  function SubmissionId(s: Submission): int {
    s.id
  }

  function ValueId(v: StoredValue): int {
    v.id
  }

  function ModelId(m: RiskModel): int {
    m.id
  }

  function RowId(x: ValueRow): int {
    x.id
  }

  /** Sequential ids make the table's rows ascending by id. */
  lemma SequentialSubmissions(st: Store)
    requires SequentialIds(st)
    ensures Ascending(st.submissions, SubmissionId)
    ensures Ascending(st.values, ValueId)
    ensures Ascending(st.models, ModelId)
  {
  }

  /** `RiskDataLogViewSet.get_queryset`: the successful submissions, restricted to one risk model
      when the `risk_model` parameter is given, newest (highest id) first. */
  function SubmissionLog(st: Store, riskModel: Option<int>): (r: seq<Submission>)
    ensures forall s :: s in r <==>
      s in st.submissions && s.success && (riskModel.Some? ==> s.riskModel == riskModel.value)
    ensures SequentialIds(st) ==> Descending(r, SubmissionId)
  {
    var kept := Filter(st.submissions, (s: Submission) => s.success && (riskModel.Some? ==> s.riskModel == riskModel.value));
    if SequentialIds(st) then
      SequentialSubmissions(st);
      FilterAscending(st.submissions, (s: Submission) => s.success && (riskModel.Some? ==> s.riskModel == riskModel.value), SubmissionId);
      ReverseDescending(kept, SubmissionId);
      Reverse(kept)
    else Reverse(kept)
  }

  /** Where uploaded files live: Django's file-system storage, or an external store served under
      `STATIC_URL`. */
  datatype Storage = FileSystem | External(staticUrl: string)

  /** The request facts the projection uses: whether it is secure, and its `Host` header. */
  datatype RequestInfo = RequestInfo(secure: bool, host: string)

  /** Python's `f"{value}"` for a nullable column: `None` prints as `None`. */
  function Show(value: Option<string>): string {
    match value
    case None => "None"
    case Some(s) => s
  }

  /** The URL prefix a file locator is placed after. */
  function FilePrefix(storage: Storage, req: RequestInfo): (p: string)
    ensures storage.External? ==> p == storage.staticUrl
    ensures storage.FileSystem? && req.secure ==> p == "https://" + req.host
    ensures storage.FileSystem? && !req.secure ==> p == "http://" + req.host
  {
    match storage
    case External(url) => url
    case FileSystem => (if req.secure then "https://" else "http://") + req.host
  }

  /** `FieldValueResponseSerializer.get_value`: file values become URLs, other values are returned verbatim. */
  function GetValue(storage: Storage, req: RequestInfo, fieldType: string, value: Option<string>): (r: Option<string>)
    ensures fieldType != "file" ==> r == value
    ensures fieldType == "file" ==> r.Some? && r.value == FilePrefix(storage, req) + Show(value)
  {
    if fieldType == "file" then Some(FilePrefix(storage, req) + Show(value)) else value
  }

  /** The stored locator can be read back from a file URL by dropping the prefix. */
  lemma FileUrlKeepsLocator(storage: Storage, req: RequestInfo, value: string)
    ensures var url := GetValue(storage, req, "file", Some(value)).value;
      var p := FilePrefix(storage, req);
      |url| == |p| + |value| && url[..|p|] == p && url[|p|..] == value
  {
  }

  /** One row of a retrieved submission. */
  datatype ValueRow = ValueRow(id: nat, fieldName: string, fieldType: string, value: Option<string>)

  /** The row for one stored value; its field is read through the foreign key, which sees deleted
      fields too. */
  function Row(st: Store, storage: Storage, req: RequestInfo, v: StoredValue): (r: ValueRow)
    requires Valid(st) && v in st.values
    ensures r.id == v.id && r.fieldName == st.fields[v.field - 1].name && r.fieldType == st.fields[v.field - 1].fieldType
    ensures r.value == GetValue(storage, req, r.fieldType, v.value)
  {
    var f := st.fields[v.field - 1];
    ValueRow(v.id, f.name, f.fieldType, GetValue(storage, req, f.fieldType, v.value))
  }

  /** The stored values of one submission, in ascending id order. */
  function SubmissionValues(st: Store, submission: int): (r: seq<StoredValue>)
    ensures forall v :: v in r <==> v in st.values && v.submission == submission
    ensures SequentialIds(st) ==> Ascending(r, ValueId)
  {
    if SequentialIds(st) then
      SequentialSubmissions(st);
      FilterAscending(st.values, (v: StoredValue) => v.submission == submission, ValueId);
      Filter(st.values, (v: StoredValue) => v.submission == submission)
    else Filter(st.values, (v: StoredValue) => v.submission == submission)
  }

  /** `RiskDataViewSet.retrieve`: one row per stored value of the submission, in ascending id order. */
  function Retrieve(st: Store, storage: Storage, req: RequestInfo, submission: int): (r: seq<ValueRow>)
    requires Valid(st)
    ensures |r| == |SubmissionValues(st, submission)|
    ensures forall i | 0 <= i < |r| :: r[i] == Row(st, storage, req, SubmissionValues(st, submission)[i])
    ensures Ascending(r, RowId)
  {
    var vs := SubmissionValues(st, submission);
    assert forall i | 0 <= i < |vs| :: vs[i] in st.values;
    var r := seq(|vs|, i requires 0 <= i < |vs| => Row(st, storage, req, vs[i]));
    assert Ascending(r, RowId) by {
      forall i, j | 0 <= i < j < |r|
        ensures RowId(r[i]) < RowId(r[j])
      {
        assert ValueId(vs[i]) < ValueId(vs[j]);
      }
    }
    r
  }

  /** `RiskModelViewSet.field_types`: the field-type choices, from which the registry can be read back. */
  function FieldTypesView(): (r: seq<Registry.Choice>)
    ensures |r| == |Registry.FieldTypes|
    ensures Registry.DictToTuple(r) == Registry.FieldTypes
  {
    Registry.TupleToDictRoundTrip(Registry.FieldTypes);
    Registry.FieldChoices()
  }

  /** `RiskModelViewSet.queryset`: every risk model, highest id first. */
  function RiskModelListing(st: Store): (r: seq<RiskModel>)
    ensures forall m :: m in r <==> m in st.models
    ensures SequentialIds(st) ==> Descending(r, ModelId)
  {
    if SequentialIds(st) then
      SequentialSubmissions(st);
      ReverseDescending(st.models, ModelId);
      Reverse(st.models)
    else Reverse(st.models)
  }
}

=== FILE: webutils.dfy ===
/** The web app's list helpers: moving a field up or down, renumbering field orders, and
    turning blank strings into nulls before a risk model is sent to the API. */
module WebUtils {
  import opened Results
  import opened Schema

  /** `Array.prototype.indexOf`: the first position holding `e`. */
  function IndexOf<T(==)>(a: seq<T>, e: T): (r: nat)
    requires e in a
    ensures r < |a| && a[r] == e
    ensures forall j | 0 <= j < r :: a[j] != e
  {
    if a[0] == e then 0 else 1 + IndexOf(a[1..], e)
  }

  /** `Array.prototype.splice(start, 2, x, y)`: two elements from `start` (fewer at the end)
      replaced by `x` and `y`. */
  function Splice2<T>(a: seq<T>, start: nat, x: T, y: T): (r: seq<T>)
    requires start <= |a|
    ensures start + 2 <= |a| ==> |r| == |a|
    ensures |r| >= start + 2 && r[start] == x && r[start + 1] == y
    ensures forall k | 0 <= k < start :: r[k] == a[k]
    ensures forall k | start + 2 <= k < |a| :: r[k] == a[k]
  {
    a[..start] + [x, y] + a[if start + 2 <= |a| then start + 2 else |a|..]
  }

  /** `move(array, element, delta)`: nothing happens when the new position would be before the
      start or exactly at the end; otherwise the two elements from the lower of the old and new
      positions are replaced by the element at the higher one and the one at the lower one.
      The caller passes an element of the array and a delta that does not overshoot the end by
      more than one, as the up and down buttons (delta -1 and +1) do. */
  function Move<T(==)>(a: seq<T>, e: T, delta: int): (r: seq<T>)
    requires e in a && IndexOf(a, e) + delta <= |a|
    ensures var n := IndexOf(a, e) + delta; n < 0 || n == |a| ==> r == a
  {
    var index := IndexOf(a, e);
    var newIndex := index + delta;
    if newIndex < 0 || newIndex == |a| then a
    else
      var lo := if index <= newIndex then index else newIndex;
      var hi := if index <= newIndex then newIndex else index;
      Splice2(a, lo, a[hi], a[lo])
  }

  /** Swapping two neighbours as a two-element splice. */
  function Swap<T>(a: seq<T>, lo: nat): (r: seq<T>)
    requires lo + 1 < |a|
    ensures |r| == |a| && r[lo] == a[lo + 1] && r[lo + 1] == a[lo]
    ensures forall k | 0 <= k < |a| && k != lo && k != lo + 1 :: r[k] == a[k]
    ensures multiset(r) == multiset(a)
  {
    var b := a[lo := a[lo + 1]];
    assert multiset(b) == multiset(a) - multiset{a[lo]} + multiset{a[lo + 1]};
    b[lo + 1 := a[lo]]
  }

  /** A unit move inside the array swaps the element with its neighbour and leaves the rest alone:
      the result is a permutation of the input. */
  lemma MoveSwaps<T>(a: seq<T>, e: T, delta: int)
    requires e in a && (delta == 1 || delta == -1)
    requires 0 <= IndexOf(a, e) + delta < |a|
    ensures var i := IndexOf(a, e); var n := i + delta; var r := Move(a, e, delta);
      && r == Swap(a, if delta == 1 then i else n)
      && |r| == |a|
      && r[n] == e && r[i] == a[n]
      && (forall k | 0 <= k < |a| && k != i && k != n :: r[k] == a[k])
      && multiset(r) == multiset(a)
  {
    var i := IndexOf(a, e);
    var n := i + delta;
    var lo := if i <= n then i else n;
    var r := Move(a, e, delta);
    assert r == Splice2(a, lo, a[lo + 1], a[lo]);
    var w := Swap(a, lo);
    assert |r| == |w|;
    assert forall k | 0 <= k < |r| :: r[k] == w[k];
  }

  /** Swapping the same neighbours twice restores the sequence. */
  lemma SwapTwice<T>(a: seq<T>, lo: nat)
    requires lo + 1 < |a|
    ensures Swap(Swap(a, lo), lo) == a
  {
    var b := Swap(Swap(a, lo), lo);
    assert forall k | 0 <= k < |a| :: b[k] == a[k];
  }

  /** The first occurrence is at `n` when `a[n]` holds the element and nothing before it does. */
  lemma IndexOfAt<T>(a: seq<T>, e: T, n: nat)
    requires n < |a| && a[n] == e && forall k | 0 <= k < n :: a[k] != e
    ensures e in a && IndexOf(a, e) == n
  {
  }

  /** The element occurs once in the sequence. */
  predicate OccursOnce<T(==)>(a: seq<T>, e: T) {
    e in a && forall k | 0 <= k < |a| && a[k] == e :: k == IndexOf(a, e)
  }

  /** Moving an element that occurs once and then moving it back restores the array. */
  lemma MoveRoundTrip<T>(a: seq<T>, e: T, delta: int)
    requires OccursOnce(a, e) && (delta == 1 || delta == -1)
    requires 0 <= IndexOf(a, e) + delta < |a|
    ensures var r := Move(a, e, delta); e in r && IndexOf(r, e) - delta <= |r| && Move(r, e, -delta) == a
  {
    var i := IndexOf(a, e);
    var n := i + delta;
    var lo := if delta == 1 then i else n;
    MoveSwaps(a, e, delta);
    var r := Move(a, e, delta);
    forall k | 0 <= k < n
      ensures r[k] != e
    {
      if k == i {
        assert a[n] != e;
      } else {
        assert a[k] != e;
      }
    }
    IndexOfAt(r, e, n);
    MoveSwaps(r, e, -delta);
    SwapTwice(a, lo);
  }

  /** At the first position an upward move, and at the last a downward move, changes nothing. */
  lemma MoveAtEdgesIsNoOp<T>(a: seq<T>, e: T)
    requires e in a
    ensures IndexOf(a, e) == 0 ==> Move(a, e, -1) == a
    ensures IndexOf(a, e) == |a| - 1 ==> Move(a, e, 1) == a
  {
  }

  /** `refreshFieldOrder(array)`: each field's order becomes its 1-based position; nothing else changes. */
  function RefreshFieldOrder(fs: seq<FieldData>): (r: seq<FieldData>)
    ensures |r| == |fs|
    ensures forall i | 0 <= i < |fs| :: r[i].(order := fs[i].order) == fs[i]
    ensures Names(r) == Names(fs)
  {
    seq(|fs|, i requires 0 <= i < |fs| => fs[i].(order := i + 1))
  }

  /** Renumbered fields always pass the server's order check, so validation of the renumbered list
      succeeds exactly when it is non-empty with distinct names. */
  lemma RefreshedOrderValidates(fs: seq<FieldData>)
    ensures |fs| > 0 ==> OrderEndpoints(RefreshFieldOrder(fs))
    ensures ValidateFields(RefreshFieldOrder(fs)).Ok? <==> |fs| > 0 && Distinct(Names(fs))
  {
  }

  /** Renumbering is idempotent and does not depend on the orders it replaces. */
  lemma RefreshIdempotent(fs: seq<FieldData>)
    ensures RefreshFieldOrder(RefreshFieldOrder(fs)) == RefreshFieldOrder(fs)
    ensures forall i | 0 <= i < |fs| :: RefreshFieldOrder(fs)[i].order == i + 1
  {
  }

  /** A JSON value as the web app holds it. */
  datatype Json =
    | JNull
    | JBool(b: bool)
    | JNum(n: int)
    | JStr(s: string)
    | JArr(items: seq<Json>)
    | JObj(members: seq<(string, Json)>)

  /** What `nullBlankFields` leaves in an object, an array or a scalar: blank members and
      elements become null, and the elements of a `fields` array are processed in turn. */
  function Blank(v: Json): Json
    decreases v, 1
  {
    match v
    case JObj(ms) => JObj(seq(|ms|, i requires 0 <= i < |ms| => (ms[i].0, BlankMember(ms[i].0, ms[i].1))))
    case JArr(xs) => JArr(seq(|xs|, i requires 0 <= i < |xs| => if xs[i] == JStr("") then JNull else xs[i]))
    case _ => v
  }

  /** One member of an object: a blank value becomes null; a `fields` array has every element
      processed; any other value is kept. */
  function BlankMember(key: string, x: Json): Json
    decreases x, 0
  {
    if x == JStr("") then JNull
    else if key == "fields" && x.JArr? then JArr(seq(|x.items|, j requires 0 <= j < |x.items| => Blank(x.items[j])))
    else x
  }

  /** Whether processing raises a `TypeError`: `Object.keys(null)`, or a non-blank `fields`
      member that has no `forEach` or holds an element that raises. */
  predicate Throws(v: Json)
    decreases v, 1
  {
    match v
    case JNull => true
    case JObj(ms) => exists i | 0 <= i < |ms| :: MemberThrows(ms[i].0, ms[i].1)
    case _ => false
  }

  predicate MemberThrows(key: string, x: Json)
    decreases x, 0
  {
    x != JStr("") && key == "fields" && (!x.JArr? || exists j | 0 <= j < |x.items| :: Throws(x.items[j]))
  }

  /** `nullBlankFields(data)`: `None` when it raises. On an object the keys are kept, no member is
      blank any more, blank members became null, members other than `fields` are otherwise
      untouched, and a `fields` array has each of its elements processed in place. */
  function NullBlankFields(data: Json): (r: Option<Json>)
    ensures r.None? <==> Throws(data)
    ensures data.JNull? ==> r.None?
    ensures r.Some? && data.JObj? ==>
      && r.value.JObj? && |r.value.members| == |data.members|
      && forall i | 0 <= i < |data.members| ::
        var (k, x) := data.members[i];
        && r.value.members[i].0 == k
        && r.value.members[i].1 != JStr("")
        && (x == JStr("") ==> r.value.members[i].1 == JNull)
        && (k != "fields" ==> x != JStr("") ==> r.value.members[i].1 == x)
        && (k == "fields" && x != JStr("") ==> x.JArr? && r.value.members[i].1.JArr?)
        && (k == "fields" && x.JArr? ==>
              && |r.value.members[i].1.items| == |x.items|
              && forall j | 0 <= j < |x.items| :: !Throws(x.items[j]) && r.value.members[i].1.items[j] == Blank(x.items[j]))
  {
    if Throws(data) then None
    else
      assert data.JObj? ==> forall i | 0 <= i < |data.members| :: Blank(data).members[i] == (data.members[i].0, BlankMember(data.members[i].0, data.members[i].1));
      Some(Blank(data))
  }

  /** Processing twice gives what processing once gives. */
  lemma {:induction false} BlankIdempotent(v: Json)
    ensures Blank(Blank(v)) == Blank(v)
    decreases v, 1
  {
    match v
    case JObj(ms) =>
      var once := Blank(v).members;
      assert |Blank(Blank(v)).members| == |once|;
      forall i | 0 <= i < |ms|
        ensures Blank(Blank(v)).members[i] == once[i]
      {
        assert ms[i] in ms;
        MemberIdempotent(ms[i].0, ms[i].1);
      }
    case JArr(xs) =>
    case _ =>
  }

  lemma {:induction false} MemberIdempotent(key: string, x: Json)
    ensures BlankMember(key, BlankMember(key, x)) == BlankMember(key, x)
    decreases x, 0
  {
    if x != JStr("") && key == "fields" && x.JArr? {
      var once := BlankMember(key, x);
      assert |BlankMember(key, once).items| == |once.items|;
      forall j | 0 <= j < |x.items|
        ensures BlankMember(key, once).items[j] == once.items[j]
      {
        assert x.items[j] in x.items;
        BlankIdempotent(x.items[j]);
      }
    }
  }

  /** Whether some `fields` member that processing reaches holds the blank string. */
  predicate BlankFieldsList(v: Json)
    decreases v, 1
  {
    match v
    case JObj(ms) => exists i | 0 <= i < |ms| :: MemberBlankFields(ms[i].0, ms[i].1)
    case _ => false
  }

  predicate MemberBlankFields(key: string, x: Json)
    decreases x, 0
  {
    key == "fields" && (x == JStr("") || (x.JArr? && exists j | 0 <= j < |x.items| :: BlankFieldsList(x.items[j])))
  }

  /** A value that processes without raising, and has no blank `fields` member, is still one after
      processing. */
  lemma {:induction false} BlankKeepsSafe(v: Json)
    requires !Throws(v) && !BlankFieldsList(v)
    ensures !Throws(Blank(v))
    decreases v, 1
  {
    match v
    case JObj(ms) =>
      var once := Blank(v).members;
      forall i | 0 <= i < |ms|
        ensures !MemberThrows(once[i].0, once[i].1)
      {
        assert ms[i] in ms;
        assert !MemberThrows(ms[i].0, ms[i].1) && !MemberBlankFields(ms[i].0, ms[i].1);
        MemberKeepsSafe(ms[i].0, ms[i].1);
      }
    case JArr(xs) =>
    case _ =>
  }

  lemma {:induction false} MemberKeepsSafe(key: string, x: Json)
    requires !MemberThrows(key, x) && !MemberBlankFields(key, x)
    ensures !MemberThrows(key, BlankMember(key, x))
    decreases x, 0
  {
    if x != JStr("") && key == "fields" && x.JArr? {
      var once := BlankMember(key, x);
      forall j | 0 <= j < |x.items|
        ensures !Throws(once.items[j])
      {
        assert x.items[j] in x.items;
        BlankKeepsSafe(x.items[j]);
      }
    }
  }

  /** Running `nullBlankFields` on its own output gives the same output, provided no `fields`
      member is blank. */
  lemma NullBlankFieldsIdempotent(data: Json)
    requires NullBlankFields(data).Some? && !BlankFieldsList(data)
    ensures NullBlankFields(NullBlankFields(data).value) == NullBlankFields(data)
  {
    BlankKeepsSafe(data);
    BlankIdempotent(data);
  }

  /** A blank `fields` member becomes null, and a second pass then raises on `null.forEach`. */
  lemma BlankFieldsMemberRaisesOnSecondPass()
    ensures NullBlankFields(JObj([("fields", JStr(""))])) == Some(JObj([("fields", JNull)]))
    ensures NullBlankFields(JObj([("fields", JNull)])).None?
  {
    var v := JObj([("fields", JStr(""))]);
    assert !MemberThrows("fields", JStr(""));
    assert Blank(v).members == [("fields", JNull)];
    var u := JObj([("fields", JNull)]);
    assert MemberThrows(u.members[0].0, u.members[0].1);
  }
}
